=== FILE: README.md ===
# primitive_db in Dafny

`primitive_db` is a small table store driven by SQL-like commands. This project
models its two pure parts:

- **The argument parser** (`src/primitive_db/parser.py`). `parse_where_clause`
  and `parse_set_clause` read `col = literal` into a one-entry clause.
  `parse_values` reads `(lit, lit, ...)` into a list of values. Both use the
  same literal classification: a quoted literal is text, `true`/`false` is a
  bool, an integer is an int, and anything else is raw text.
- **The schema and record engine** (`src/primitive_db/core.py`). `create_table`
  and `drop_table` work on the metadata map from table name to column list.
  `validate_value` coerces a value to a column type. `insert`, `select`,
  `update` and `delete` work on a table's list of records.

The project has seven modules, one file each:

- `Outcomes` holds `Option` and `Result`. A Python `None` return or a raised
  `ValueError` becomes `None`/`Failure`.
- `PyText` holds the Python string built-ins the code relies on:
  - `str.strip()` with Python's whitespace set;
  - ASCII `str.lower()`;
  - `str.split(sep, 1)`;
  - `int(text)`;
  - `str(int)`.
- `Values` holds the stored value type (`int | str | bool`), records, tables
  and clauses. It also holds `PyEq`, Python's `==` on stored values, under which
  `True == 1` and text never equals a number.
- `Parser` models `parser.py`. The comma splitter of `parse_values` is a left
  fold over one character at a time, carrying the open quote character.
- `Schema` models `create_table` and `drop_table`.
- `Records` models `validate_value`, ID assignment, `insert`, `select`,
  `update` and `delete`.
- `Scenario` models an example session: create `orders`, insert
  `("Sergei", 28)`, then select by `age`.

Each operation is a pure function. Where the source mutates its argument and
returns it, the model returns the new value. Where the source prints an error
and returns `None`, the model returns a `Failure` that names the error.

## Model

| member | source | states |
|---|---|---|
| `PyText.Strip` | src/primitive_db/parser.py:21-22 | `strip()` returns a text that neither starts nor ends with whitespace and is no longer than its input |
| `PyText.StripOfPadded` | src/primitive_db/parser.py:21-22 | whitespace, then a trimmed text, then whitespace, strips to exactly that trimmed text |
| `PyText.StripRemovesOnlyEndSpace` | src/primitive_db/parser.py:21-22 | the input is the stripped text with only whitespace before and after it |
| `PyText.StripKeepsTrimmed` | src/primitive_db/parser.py:97 | stripping a text that is already trimmed leaves it unchanged, so stripping each piece again is harmless |
| `PyText.StripIdempotent` | src/primitive_db/parser.py:85-97 | stripping twice is the same as stripping once |
| `PyText.StripSkipsLeadingSpace` | src/primitive_db/parser.py:85-89 | whitespace added in front of a text does not change its strip |
| `PyText.SplitOnce` | src/primitive_db/parser.py:17-19 | `split("=", 1)` yields no second part exactly when the separator is absent; otherwise the input is the first part, the separator, then the second part, and the first part holds no separator |
| `PyText.SplitOnceAtFirst` | src/primitive_db/parser.py:17 | the split point is the first separator; later separators stay in the second part |
| `PyText.Lower` | src/primitive_db/parser.py:29-31 | `lower()` keeps the length; `PyText.LowerCaseInsensitive` states that it ignores ASCII case when compared with a lower-case word |
| `PyText.LowerCaseInsensitive` | src/primitive_db/parser.py:29-31 | a text lowers to a word of lower-case letters and digits exactly when it has the word's length and each character is the word's character or, for a letter, its upper-case form |
| `PyText.ParseInt` | src/primitive_db/parser.py:35-38 | `int(text)`: whitespace, an optional sign, one or more ASCII digits, whitespace. It has no ensures of its own; `PyText.ParseIntOfPadded` and `PyText.ParseIntAcceptsOnlyPadded` state that it accepts exactly these texts and what number each denotes; `PyText.ParseIntRejectsSeparator` and `PyText.IntToStringRoundTrip` follow |
| `PyText.ParseIntOfPadded` | src/primitive_db/parser.py:35-38 | every text of that shape parses, to the number it denotes: a `+` and surrounding whitespace are accepted |
| `PyText.ParseIntAcceptsOnlyPadded` | src/primitive_db/parser.py:35-38 | every text that parses has that shape and parses to the number the shape denotes; so every other text is rejected |
| `PyText.ParseIntOfIntSpaced` | src/primitive_db/parser.py:35-36 | around a text that neither starts nor ends with whitespace, whitespace that `int()` skips does not change what it reads |
| `PyText.ParseIntRejectsSeparator` | src/primitive_db/core.py:100-103 | a text starting with one of U+001C..U+001F does not parse as an int, although `strip()` treats these characters as whitespace |
| `PyText.SmallIntTexts` | src/primitive_db/core.py:105 | `str(28)`, `str(1)` and `str(0)` are `28`, `1` and `0` |
| `PyText.NatToString` | src/primitive_db/core.py:105 | `str(n)` for a natural number is a non-empty run of digits with no leading zero |
| `PyText.IntToString` | src/primitive_db/core.py:105 | `str(n)` begins with `-` exactly when `n` is negative, followed by digits |
| `PyText.NatToStringRoundTrip` | src/primitive_db/core.py:100-105 | the digits of `str(n)` have the value `n` |
| `PyText.ParseIntOfDigits` | src/primitive_db/parser.py:35-36 | `int()` of a run of ASCII digits is the number they spell |
| `PyText.ParseIntOfNegatedDigits` | src/primitive_db/parser.py:35-36 | `int()` of `-` followed by digits is the negated number |
| `PyText.IntToStringRoundTrip` | src/primitive_db/core.py:100-105 | `int(str(n)) == n` for every integer (the model has no limit on the number of digits) |
| `PyText.IntToStringInjective` | src/primitive_db/core.py:109-111 | two integers print the same exactly when they are equal |
| `Values.PyEq` | src/primitive_db/core.py:192 | Python's `==` on stored values. It has no ensures of its own; `Values.PyEqIsKeyEquality` and `Values.PyEqMixesBoolAndInt` state it |
| `Values.PyStr` | src/primitive_db/core.py:105 | Python's `str(value)`. It has no ensures of its own; `Records.Coerce` (text column) and `Records.CoerceTextRoundTrip` state it |
| `Values.Matches` | src/primitive_db/core.py:189-194 | a record matches a clause when it holds every clause key with an equal value. It has no ensures of its own; `Records.Select`, `Records.Delete` and `Records.Update` are stated in terms of it |
| `Values.PyEqIsKeyEquality` | src/primitive_db/core.py:192 | Python's `==` on stored values compares numbers and bools by integer value and text by itself, so it is an equivalence |
| `Values.PyEqMixesBoolAndInt` | src/primitive_db/core.py:219 | `True == 1` and `False == 0` hold; an int never equals text, even its own digits |
| `Parser.Classify` | src/primitive_db/parser.py:25-38 | a bool result spells `true`/`false` in some case; an int result is what `int()` reads from the text; a text result is either the raw input or comes from a quoted literal |
| `Parser.ClassifyQuoted` | src/primitive_db/parser.py:25-28 | anything between two equal quote characters comes back verbatim as text, with no escape handling |
| `Parser.ClassifyLoneQuote` | src/primitive_db/parser.py:25-28 | a lone `"` or `'` both starts and ends with the quote, so it reads as empty text |
| `Parser.ClassifyBool` | src/primitive_db/parser.py:29-32 | a literal reads as a given bool exactly when it lower-cases to that bool's word |
| `Parser.ClassifyBoolSpelling` | src/primitive_db/parser.py:29-32 | `true` or `false` with any of its letters in upper case reads as that bool |
| `Parser.ClassifyBoolAnyCase` | src/primitive_db/parser.py:29-32 | `TRUE` reads as `True` and `False` as `False` |
| `Parser.ClassifyIntText` | src/primitive_db/parser.py:33-36 | the decimal text of any integer reads back as that int |
| `Parser.ClassifyParsedInt` | src/primitive_db/parser.py:33-36 | text that is not quoted and not a bool word, and that `int()` accepts, reads as the int `int()` gives (`+5`, `007` and `-0` included) |
| `Parser.ClassifyRawText` | src/primitive_db/parser.py:37-38 | text that is not quoted, not a bool word and not an integer is kept as raw text |
| `Parser.ParseWhereClause` | src/primitive_db/parser.py:14-19 | the result is missing exactly when the input has no `=`, the empty input included; otherwise it is a clause with exactly one entry |
| `Parser.WhereClauseSplitsAtFirstEquals` | src/primitive_db/parser.py:17-40 | with no `=` before the first one, the key is the stripped left side and the value is the classified, stripped remainder, which may itself contain `=` |
| `Parser.ParseSetClause` | src/primitive_db/parser.py:43-53 | a `set` clause is read exactly as a `where` clause |
| `Parser.Unparenthesize` | src/primitive_db/parser.py:67-69 | the outer parentheses go exactly when the text both starts with `(` and ends with `)`; otherwise the text is kept |
| `Parser.UnparenthesizeWrapped` | src/primitive_db/parser.py:68-69 | a text wrapped in parentheses is unwrapped to itself |
| `Parser.Step` | src/primitive_db/parser.py:77-89 | one character of the splitter. It has no ensures of its own; the `Parser.Scan*` lemmas below state its behaviour |
| `Parser.Scan` | src/primitive_db/parser.py:77-89 | the splitter loop over the whole text. It has no ensures of its own; `Parser.ScanAppend`, `Parser.ScanInsideQuote`, `Parser.ScanPlain`, `Parser.ScanQuotedSpan` and `Parser.ScanCommaOutside` state it |
| `Parser.Finish` | src/primitive_db/parser.py:91-92 | the last piece after the loop. It has no ensures of its own; `Parser.FinalPieceKeptOnlyWhenNonEmpty` states it |
| `Parser.SplitValues` | src/primitive_db/parser.py:72-92 | the comma splitter. It has no ensures of its own; `Parser.SplitJoined` and `Parser.FinalPieceKeptOnlyWhenNonEmpty` state it |
| `Parser.ParseValues` | src/primitive_db/parser.py:56-115 | `parse_values`. It has no ensures of its own; `Parser.ParseValuesRoundTrip` and the examples below state it |
| `Parser.ScanAppend` | src/primitive_db/parser.py:77-89 | the splitter is a left fold: scanning `a + b` is scanning `b` from the state after `a` |
| `Parser.ScanInsideQuote` | src/primitive_db/parser.py:78-83 | inside an open quote span, commas and the other quote character are collected and do not split |
| `Parser.ScanPlain` | src/primitive_db/parser.py:84-89 | outside a span, text without quotes or commas just joins the current piece |
| `Parser.ScanQuotedSpan` | src/primitive_db/parser.py:78-89 | a whole quoted span joins the current piece with its quote characters kept, and the scan is outside a span again afterwards |
| `Parser.ScanCommaOutside` | src/primitive_db/parser.py:84-87 | a comma outside a span closes the current piece, stripped, and starts an empty one |
| `Parser.FinalPieceKeptOnlyWhenNonEmpty` | src/primitive_db/parser.py:91-92 | when the scan ends outside a quote span, a trailing comma always closes a piece, but the end of input keeps the last piece only when it is non-empty before stripping |
| `Parser.ScanJoined` | src/primitive_db/parser.py:72-92 | tokens joined with `, ` split back into exactly those tokens |
| `Parser.RenderedToken` | src/primitive_db/parser.py:96-113 | the literal written for a value survives the splitter whole and classifies back to that value |
| `Parser.ClassifyRenderAll` | src/primitive_db/parser.py:94-113 | classifying the pieces written for a value list gives the list back |
| `Parser.SplitJoined` | src/primitive_db/parser.py:72-92 | a non-empty list of tokens joined with `, ` splits back into the same list |
| `Parser.ParseValuesRoundTrip` | src/primitive_db/parser.py:56-115 | `parse_values` of a written value list `(v1, v2, ...)` is the list, for every list whose texts do not hold both quote characters |
| `Parser.ParseValuesDocExample` | src/primitive_db/parser.py:61-64 | `("Sergei", 28, true)` reads as text `Sergei`, int 28 and bool true |
| `Parser.ParseValuesQuotedComma` | src/primitive_db/parser.py:74-89 | `("A, B", 1, true)` keeps the quoted comma inside its text and gives three values |
| `Parser.ParseValuesEmpty` | src/primitive_db/parser.py:67-92 | `()` reads as the empty list |
| `Schema.ParseColType` | src/primitive_db/core.py:34 | a recognised type name is spelled exactly as one of `int`, `str` and `bool` |
| `Schema.ParseColTypeOfName` | src/primitive_db/core.py:5 | each of the three type names is recognised as its type |
| `Schema.ParseColumnSpec` | src/primitive_db/core.py:28-38 | a token without `:` is rejected; an accepted token is exactly `name:type` for its column, whose name holds no `:` |
| `Schema.ColumnSpecRoundTrip` | src/primitive_db/core.py:32-38 | every column whose name holds no `:` is read back from its own `name:type` token |
| `Schema.ParseColumnSpecs` | src/primitive_db/core.py:27-38 | the token list yields columns exactly when every token is valid, one column per token in order |
| `Schema.CreateTable` | src/primitive_db/core.py:20-42 | an existing name or any invalid token leaves the metadata unchanged; otherwise only the new name is added, and its columns are `ID:int` followed by the tokens' columns in order |
| `Schema.DropTable` | src/primitive_db/core.py:61-65 | removes exactly the named table, changes no other table, and changes nothing when the name is missing |
| `Schema.DropUndoesCreate` | src/primitive_db/core.py:40-65 | creating a new table and then dropping it restores the metadata |
| `Schema.RecreateAfterDrop` | src/primitive_db/core.py:61-65 | after a drop, the name can be created again with any valid schema |
| `Schema.CreateTableOfParsed` | src/primitive_db/core.py:40-42 | a new name with valid tokens gets `ID:int` followed by the parsed columns |
| `Schema.CreateOrdersExample` | src/primitive_db/core.py:24-42 | `orders` with `name:str age:int` gets the columns `ID:int, name:str, age:int` |
| `Records.Coerce` | src/primitive_db/core.py:97-114 | the result has the column's type; a value of the right type is kept; coercion to text never fails and gives `str(value)`; coercion to int fails exactly on text that `int()` rejects, and otherwise gives what `int()` reads or a number equal to the input |
| `Records.CoerceTextToBool` | src/primitive_db/core.py:106-113 | text becomes a bool exactly when it lower-cases to `true`/`1` (true) or `false`/`0` (false) |
| `Records.CoerceBoolSpelling` | src/primitive_db/core.py:106-112 | `true` or `false` with any of its letters in upper case coerces to that bool |
| `Records.CoerceIntToBool` | src/primitive_db/core.py:106-113 | an int becomes a bool only when it is 1 or 0 |
| `Records.CoerceKeepsNumbers` | src/primitive_db/core.py:97-113 | coercing an int or a bool to int or bool gives a value equal to it under Python's `==` |
| `Records.CoerceTextRoundTrip` | src/primitive_db/core.py:97-113 | writing a typed value as text and coercing that text back to the type gives the value again |
| `Records.MaxIdAt` | src/primitive_db/core.py:146 | points at a record whose `ID` is at least every other `ID` |
| `Records.NextId` | src/primitive_db/core.py:145-148 | the new `ID` is above every existing `ID` (a bool `ID` counting as 0 or 1); it is 1 for an empty table and otherwise one past some record's `ID` |
| `Records.FirstInvalid` | src/primitive_db/core.py:153-164 | every value before the index coerces, and the value at the index does not |
| `Records.NamesCons` | src/primitive_db/core.py:153-155 | the names of a column list are its first name plus the names of the rest |
| `Records.BuildRecord` | src/primitive_db/core.py:151-166 | the loop that fills the record. It has no ensures of its own; `Records.BuildRecordSpec` states it |
| `Records.BuildRecordSpec` | src/primitive_db/core.py:151-166 | filling a record fails exactly at the first value that does not coerce, naming it; on success the record holds the base keys plus one key per column, and a repeated column name keeps its last value |
| `Records.Insert` | src/primitive_db/core.py:130-171 | an unknown table, a wrong value count and a value that does not coerce each fail with their own error (the last naming the first such value and its column) and append nothing; success appends exactly one record after the unchanged ones, holding `ID` (the next ID, when no user column is named `ID`) and, for the last column of each name, that column's coerced value |
| `Records.InsertOfBuilt` | src/primitive_db/core.py:151-171 | a successful insert appends the record built on top of the fresh `ID` |
| `Records.InsertPreservesUniqueIds` | src/primitive_db/core.py:145-168 | with no user column named `ID`, an insert keeps the `ID`s unique |
| `Records.InsertContinuesNumbering` | src/primitive_db/core.py:145-148 | inserting into a table numbered 1..n numbers the new record n + 1 |
| `Records.Positions` | src/primitive_db/core.py:189-196 | the indices of the records whose match is as wanted, strictly increasing, and every such record is listed |
| `Records.Pick` | src/primitive_db/core.py:188-198 | the filter loop. It has no ensures of its own; `Records.PickAtPositions`, `Records.PickPartition` and `Records.NoneKeptMatch` state it |
| `Records.PickAtPositions` | src/primitive_db/core.py:188-198 | the filter takes exactly the records at those indices, in order |
| `Records.Select` | src/primitive_db/core.py:185-198 | with no clause the table comes back unchanged; with a clause the result is, in table order, exactly the records holding every clause key with an equal value |
| `Records.PickStep` | src/primitive_db/core.py:189-196 | the last record goes to exactly one side of the filter |
| `Records.PickPartition` | src/primitive_db/core.py:264-274 | the matching and the non-matching records together are a permutation of the table |
| `Records.SelectWithEmptyClause` | src/primitive_db/core.py:188-198 | an empty clause selects every record |
| `Records.Delete` | src/primitive_db/core.py:261-284 | the new table is, in order, exactly the non-matching records; the reported `ID`s are, in order, those of the matching records |
| `Records.NoneKeptMatch` | src/primitive_db/core.py:271-274 | no record left by the filter matches the clause |
| `Records.DeleteIsPartition` | src/primitive_db/core.py:261-284 | nothing kept matches; kept plus deleted count the whole table; kept plus selected form a permutation of the table |
| `Records.DeletePreservesUniqueIds` | src/primitive_db/core.py:263-274 | the kept records keep unique `ID`s |
| `Records.DeleteNeverRaisesNextId` | src/primitive_db/core.py:145-148 | after a delete, the next `ID` of a non-empty table is no larger than before |
| `Records.BoolIdCountsAsOne` | src/primitive_db/core.py:145-146 | an `ID` of `True` counts as 1, so the next `ID` is 2 |
| `Records.IdReusedAfterDeletingLargest` | src/primitive_db/core.py:145-148 | with records of `ID` 1 and 2, deleting 2 makes the next `ID` 2 again |
| `Records.Assign` | src/primitive_db/core.py:224-226 | a matching record keeps its keys and its `ID`; every other key it holds that is in the set clause takes the clause's value, and the rest keep theirs |
| `Records.Update` | src/primitive_db/core.py:216-227 | the table keeps its length and order, every record keeps its keys and `ID`, non-matching records are unchanged, and matching ones receive the assignments; the `KeyError` path of the scan that follows is in `Records.UpdateChecked` |
| `Records.UpdatePreservesUniqueIds` | src/primitive_db/core.py:225 | an update keeps the `ID`s unique |
| `Records.AssignTwice` | src/primitive_db/core.py:224-226 | applying the same assignments twice equals applying them once |
| `Records.UpdateIdempotent` | src/primitive_db/core.py:216-227 | running the same update twice equals running it once |
| `Records.UpdatedRecordsMatchSet` | src/primitive_db/core.py:216-227 | a record that matched and holds every set key (none of them `ID`) matches the set clause afterwards |
| `Records.UpdatedCountPositive` | src/primitive_db/core.py:214-229 | `updated_count` ends positive exactly when some matching record holds a set-clause key other than `ID` |
| `Records.UpdateChecked` | src/primitive_db/core.py:214-246 | `update` with its confirmation scan: it fails exactly when an assignment was made and the first record that matches the where clause after the update has no `ID` (the `KeyError` of `record["ID"]`); otherwise it returns the updated table |
| `Records.UpdateCheckedWithIds` | src/primitive_db/core.py:229-242 | when every record holds an `ID`, the scan cannot fail |
| `Records.UpdateNoLongerMatching` | src/primitive_db/core.py:229-242 | when no record matches the where clause after the update, the scan reads nothing and the update succeeds, whatever the records hold |
| `Records.UpdateMissingIdAtFirst` | src/primitive_db/core.py:229-242 | a first record without `ID` that had a key assigned and still matches makes the update fail at position 0 |
| `Records.UpdateRaisesWithoutId` | src/primitive_db/core.py:229-242 | `[{"name": "a"}]` updated with `name = "a"` where `name = "a"` raises |
| `Scenario.ParseSergeiValues` | src/primitive_db/parser.py:56-115 | `("Sergei", 28)` reads as text `Sergei` and int 28 |
| `Scenario.InsertSergeiRow` | src/primitive_db/core.py:144-171 | that row goes into an empty `orders` table as `{ID: 1, name: "Sergei", age: 28}` |
| `Scenario.InsertSergei` | src/primitive_db/core.py:117-171 | creating `orders` and then inserting the parsed row gives a table holding just that record |
| `Scenario.WhereAgeInt` | src/primitive_db/parser.py:17-40 | `age = 28` reads as the clause with `age` equal to int 28 |
| `Scenario.WhereAgeText` | src/primitive_db/parser.py:17-40 | `age = "28"` reads as the clause with `age` equal to text `28` |
| `Scenario.SelectSergeiByAge` | src/primitive_db/core.py:188-198 | the int clause finds the record; the quoted clause finds nothing, because text never equals an int |

## Left out

- `display_table`, `show_table_info` and `list_tables` in `core.py` only print, so they are not modelled.
- All `print` calls and message texts are not modelled. This includes the `ID` that `update`'s confirmation scan prints. That is the `ID` of the first record still matching the where clause after the update, and nothing when none does. The scan's `KeyError` on a record without `ID` is modelled by `Records.UpdateChecked`.
- JSON loading and saving (`utils.py`), the prompt loop (`engine.py`, `main.py`) and the decorators in `src/decorators.py` are I/O or Python exception plumbing, so they are left out. The command dispatcher that would call the parser is not part of this model.
- Mutation and aliasing are not modelled. `insert` appends to, and `update` overwrites fields of, the caller's list and dictionaries; the model returns the new table instead.
- `Records.Coerce`: the final `return None` of `validate_value` for an unknown type name is not modelled. Column types are an enumeration here, and `create_table` admits only the three names, so the branch cannot be reached.
- `PyText.Lower`: lower-cases ASCII letters only. Python's `str.lower()` also maps other scripts; the only texts it is compared with are `true`, `false`, `1` and `0`.
- `PyText.ParseInt`: reads whitespace, an optional sign, then ASCII digits, then whitespace. The whitespace is what `strip()` removes except U+001C..U+001F. Python's `int()` also accepts `_` between digits and non-ASCII decimal digits; those are not modelled.
- `PyText.ParseInt`: has no limit on the number of digits. Python 3.11 and later reject a text of more than 4300 digits (the default of `sys.set_int_max_str_digits`), and `str(n)` fails the same way. Under that limit such a literal stays raw text and such a value cannot be inserted; the model reads and prints integers of any length. `PyText.IntToStringRoundTrip` and `Parser.ClassifyIntText` hold only in this unbounded reading.
- `Records.Insert`: requires that, once the table exists and the count matches, every record holds an `ID` that is an int or a bool (a bool counts as 0 or 1, as Python's `max` and `+ 1` treat it). A missing `ID` raises `KeyError` in the source, and a text `ID` raises `TypeError` in `max(...)` or in `+ 1`. These error paths are not modelled.
- `Records.Delete`: requires that every matching record holds an `ID`. The source would raise `KeyError` otherwise.
- `Records.InsertPreservesUniqueIds`: assumes no user column is named `ID`. `create_table` accepts such a column, and the inserted value then overwrites the generated `ID`.
- `Records.InsertContinuesNumbering`: assumes no user column is named `ID`, for the same reason.
- `Records.DeleteNeverRaisesNextId`: says nothing when the delete empties the table. In that case the next `ID` is 1, which can be larger than before when all `ID`s were negative.
- `Parser.ParseValuesRoundTrip`: covers only lists whose texts do not hold both quote characters. `Parser.Render` has no form for such a text, although the parser can produce one, as a raw literal or from a quoted piece such as `"'""`.

Behaviour of the code worth knowing, which the model keeps:

- `update` returns the table, not a count of updated records.
- `update` can raise `KeyError` after it has already changed the records, when the first record that still matches has no `ID`.
- A clause with several `=` is not rejected. It splits at the first `=`, and the rest is the value (`Parser.WhereClauseSplitsAtFirstEquals`).
- `insert` returns the table, not the new `ID`.
- `ID`s are reused: deleting the record with the largest `ID` lowers the next one (`Records.IdReusedAfterDeletingLargest`).
- A user column named `ID` is accepted by `create_table`, and `insert` then stores the user's value as the `ID`.
- Clause matching uses Python's `==`, so a clause value `True` matches a stored `1`. Text never matches a number (`Values.PyEqMixesBoolAndInt`).
- A column type is not stripped: `name: int` is rejected.

=== FILE: outcomes.dfy ===
/** Failure-carrying wrappers used across the model: `Option` stands for the
    source's `None` returns, `Result` for an error path that names its cause. */
module Outcomes {

  datatype Option<T> = None | Some(value: T)

  datatype Result<T, E> = Success(value: T) | Failure(error: E)
}

=== FILE: parser.dfy ===
/** The command-argument parser: `where`/`set` clauses (`col = literal`) and
    `values` lists (`(lit, lit, ...)`), sharing one literal classification. */
module Parser {
  import opened Outcomes
  import opened PyText
  import opened Values

  predicate IsQuoteChar(c: char) {
    c == '"' || c == '\''
  }

  /** Starts and ends with the same quote character; a lone quote qualifies. */
  predicate IsQuoted(p: string) {
    |p| > 0 && IsQuoteChar(p[0]) && p[|p| - 1] == p[0]
  }

  /** Python's `p[1:-1]`, which is empty for texts shorter than two. */
  function Unquote(p: string): string {
    if |p| < 2 then "" else p[1..|p| - 1]
  }

  function BoolWord(b: bool): string {
    if b then "true" else "false"
  }

  /** How a literal is read: quoted text loses its quotes (no escapes),
      `true`/`false` in any case is a bool, an integer is an int, and
      anything else is kept as raw text. */
  function Classify(p: string): (v: Value)
    ensures v.Bool? ==> Lower(p) == BoolWord(v.b)
    ensures v.Int? ==> ParseInt(p) == Some(v.i)
    ensures v.Str? ==> v.s == p || IsQuoted(p)
  {
    if IsQuoted(p) then Str(Unquote(p))
    else if Lower(p) == "true" then Bool(true)
    else if Lower(p) == "false" then Bool(false)
    else match ParseInt(p)
      case Some(n) => Int(n)
      case None => Str(p)
  }

  /** Any text between two equal quote characters comes back verbatim. */
  lemma ClassifyQuoted(q: char, t: string)
    requires IsQuoteChar(q)
    ensures Classify([q] + t + [q]) == Str(t)
  {
    var p := [q] + t + [q];
    assert IsQuoted(p);
    assert p[1..|p| - 1] == t;
  }

  lemma ClassifyLoneQuote()
    ensures Classify("\"") == Str("") && Classify("'") == Str("")
  {
  }

  lemma LowerBoolWord(b: bool)
    ensures Lower(BoolWord(b)) == BoolWord(b)
  {
    var w := BoolWord(b);
    assert forall i :: 0 <= i < |w| ==> LowerChar(w[i]) == w[i];
  }

  /** A literal reads as a bool exactly when it spells `true`/`false` in some case. */
  lemma ClassifyBool(p: string, b: bool)
    ensures Classify(p) == Bool(b) <==> Lower(p) == BoolWord(b)
  {
    if Lower(p) == BoolWord(b) {
      assert LowerChar(p[0]) == Lower(p)[0];
      assert !IsQuoteChar(p[0]);
    }
  }

  /** A bool word spelled with any of its letters in upper case reads as the bool. */
  lemma ClassifyBoolSpelling(p: string, b: bool)
    requires |p| == |BoolWord(b)|
    requires forall i :: 0 <= i < |p| ==>
               p[i] == BoolWord(b)[i] || p[i] as int == BoolWord(b)[i] as int - 32
    ensures Classify(p) == Bool(b)
  {
    var w := BoolWord(b);
    assert forall i :: 0 <= i < |w| ==> 'a' <= w[i] <= 'z';
    LowerCaseInsensitive(p, w);
    ClassifyBool(p, b);
  }

  /** `TRUE` and `False` read as bools. */
  lemma ClassifyBoolAnyCase()
    ensures Classify("TRUE") == Bool(true) && Classify("False") == Bool(false)
  {
    var t, f := "TRUE", "False";
    assert t[0] == 'T' && t[1] == 'R' && t[2] == 'U' && t[3] == 'E';
    ClassifyBoolSpelling(t, true);
    assert f[0] == 'F' && f[1] == 'a' && f[2] == 'l' && f[3] == 's' && f[4] == 'e';
    ClassifyBoolSpelling(f, false);
  }

  /** Python's `str(n)` reads back as the int `n`. */
  lemma ClassifyIntText(n: int)
    ensures Classify(IntToString(n)) == Int(n)
  {
    var p := IntToString(n);
    assert p[0] == '-' || IsDigit(p[0]);
    assert Lower(p)[0] == LowerChar(p[0]) == p[0];
    IntToStringRoundTrip(n);
  }

  /** Text that is not quoted and not a bool word, and that `int()` accepts,
      reads as the int `int()` gives: `+5`, `007` and `-0` included. */
  lemma ClassifyParsedInt(p: string, n: int)
    requires !IsQuoted(p) && Lower(p) != "true" && Lower(p) != "false"
    requires ParseInt(p) == Some(n)
    ensures Classify(p) == Int(n)
  {
  }

  /** Text that is not quoted, not a bool word and not an integer is kept raw. */
  lemma ClassifyRawText(p: string)
    requires !IsQuoted(p) && Lower(p) != "true" && Lower(p) != "false"
    requires ParseInt(p).None?
    ensures Classify(p) == Str(p)
  {
  }

  /** `parse_where_clause`: `col = literal` becomes a one-entry clause; the
      first `=` is the split point and both sides are stripped. */
  function ParseWhereClause(s: string): (r: Option<Clause>)
    ensures r.None? <==> '=' !in s
    ensures r.Some? ==> |r.value| == 1
  {
    if |s| == 0 then None
    else match SplitOnce(s, '=')
      case None => None
      case Some((column, text)) => Some(map[Strip(column) := Classify(Strip(text))])
  }

  /** `parse_set_clause` reads its argument exactly as a `where` clause. */
  function ParseSetClause(s: string): (r: Option<Clause>)
    ensures r.None? <==> '=' !in s
    ensures r.Some? ==> |r.value| == 1
    ensures r == ParseWhereClause(s)
  {
    ParseWhereClause(s)
  }

  /** Whatever follows the first `=`, further `=` included, is the literal. */
  lemma WhereClauseSplitsAtFirstEquals(a: string, b: string)
    requires '=' !in a
    ensures ParseWhereClause(a + "=" + b) == Some(map[Strip(a) := Classify(Strip(b))])
  {
    SplitOnceAtFirst(a, '=', b);
  }

  // ---------------------------------------------------------------------------
  // `parse_values`: a left-to-right scan that tracks one open quote character.

  datatype Quote = Outside | Inside(q: char)

  /** The loop state of the splitter: finished pieces, the piece being
      collected, and the quote span it is in. */
  datatype ScanState = ScanState(parts: seq<string>, cur: string, quote: Quote)

  const Start := ScanState([], "", Outside)

  /** One character of the splitter. A quote opens a span only outside one; only
      the same character closes it; a comma outside a span ends the piece and
      is dropped; every other character, quotes included, joins the piece. */
  function Step(st: ScanState, c: char): ScanState {
    if IsQuoteChar(c) && st.quote.Outside? then ScanState(st.parts, st.cur + [c], Inside(c))
    else if st.quote.Inside? && c == st.quote.q then ScanState(st.parts, st.cur + [c], Outside)
    else if c == ',' && st.quote.Outside? then ScanState(st.parts + [Strip(st.cur)], "", Outside)
    else ScanState(st.parts, st.cur + [c], st.quote)
  }

  function Scan(s: string, st: ScanState): ScanState
    decreases |s|
  {
    if |s| == 0 then st else Scan(s[1..], Step(st, s[0]))
  }

  /** After the scan the last piece is kept only if it is non-empty before stripping. */
  function Finish(st: ScanState): seq<string> {
    if |st.cur| > 0 then st.parts + [Strip(st.cur)] else st.parts
  }

  function SplitValues(s: string): seq<string> {
    Finish(Scan(s, Start))
  }

  /** The outer parentheses go only when the text both starts with `(` and ends with `)`. */
  function Unparenthesize(t: string): (r: string)
    ensures r == t || t == "(" + r + ")"
    ensures |t| > 0 && t[0] == '(' && t[|t| - 1] == ')' ==> t == "(" + r + ")"
    ensures !(|t| > 0 && t[0] == '(' && t[|t| - 1] == ')') ==> r == t
  {
    if |t| > 0 && t[0] == '(' && t[|t| - 1] == ')' then
      assert t == "(" + t[1..|t| - 1] + ")";
      t[1..|t| - 1]
    else t
  }

  lemma UnparenthesizeWrapped(j: string)
    ensures Unparenthesize("(" + j + ")") == j
  {
    var t := "(" + j + ")";
    assert t[0] == '(' && t[|t| - 1] == ')';
    assert t[1..|t| - 1] == j;
  }

  function ClassifyPieces(ps: seq<string>): (vs: seq<Value>)
    ensures |vs| == |ps|
  {
    seq(|ps|, i requires 0 <= i < |ps| => Classify(Strip(ps[i])))
  }

  /** `parse_values`. */
  function ParseValues(s: string): seq<Value> {
    ClassifyPieces(SplitValues(Unparenthesize(Strip(s))))
  }

  /** The scan is a left fold: scanning `a + b` is scanning `a`, then `b`. */
  lemma {:induction false} ScanAppend(a: string, b: string, st: ScanState)
    ensures Scan(a + b, st) == Scan(b, Scan(a, st))
  {
    if |a| == 0 {
      assert a + b == b;
    } else {
      assert (a + b)[0] == a[0];
      assert (a + b)[1..] == a[1..] + b;
      ScanAppend(a[1..], b, Step(st, a[0]));
    }
  }

  /** Inside an open span nothing splits: commas and the other quote character
      are collected like any other character until the opening one returns. */
  lemma {:induction false} ScanInsideQuote(t: string, st: ScanState)
    requires st.quote.Inside? && st.quote.q !in t
    ensures Scan(t, st) == ScanState(st.parts, st.cur + t, st.quote)
  {
    if |t| > 0 {
      assert t[0] in t;
      assert t[1..] + [] == t[1..] && forall c :: c in t[1..] ==> c in t;
      ScanInsideQuote(t[1..], Step(st, t[0]));
      assert st.cur + [t[0]] + t[1..] == st.cur + t;
    } else {
      assert st.cur + t == st.cur;
    }
  }

  predicate Plain(t: string) {
    forall i :: 0 <= i < |t| ==> !IsQuoteChar(t[i]) && t[i] != ','
  }

  /** Outside a span, text without quotes or commas just joins the current piece. */
  lemma {:induction false} ScanPlain(t: string, st: ScanState)
    requires st.quote.Outside? && Plain(t)
    ensures Scan(t, st) == ScanState(st.parts, st.cur + t, Outside)
  {
    if |t| > 0 {
      assert !IsQuoteChar(t[0]) && t[0] != ',';
      assert Plain(t[1..]);
      ScanPlain(t[1..], Step(st, t[0]));
      assert st.cur + [t[0]] + t[1..] == st.cur + t;
    } else {
      assert st.cur + t == st.cur;
    }
  }

  /** A whole quoted span, commas inside it included, joins the current piece
      and leaves the scan outside any span again. */
  lemma ScanQuotedSpan(q: char, t: string, st: ScanState)
    requires st.quote.Outside? && IsQuoteChar(q) && q !in t
    ensures Scan([q] + t + [q], st) == ScanState(st.parts, st.cur + ([q] + t + [q]), Outside)
  {
    ScanAppend([q], t + [q], st);
    assert [q] + t + [q] == [q] + (t + [q]);
    var st1 := Scan([q], st);
    assert st1 == ScanState(st.parts, st.cur + [q], Inside(q));
    ScanAppend(t, [q], st1);
    ScanInsideQuote(t, st1);
    assert st.cur + [q] + t + [q] == st.cur + ([q] + t + [q]);
  }

  /** A comma outside a span closes the current piece, stripped. */
  lemma ScanCommaOutside(st: ScanState)
    requires st.quote.Outside?
    ensures Scan(",", st) == ScanState(st.parts + [Strip(st.cur)], "", Outside)
  {
  }

  /** A trailing comma adds the current piece even when empty, whereas the end of
      input adds it only when non-empty: so `a,` and `a` split alike, `a, ` does not. */
  lemma FinalPieceKeptOnlyWhenNonEmpty(s: string)
    requires Scan(s, Start).quote.Outside?
    ensures var st := Scan(s, Start);
            SplitValues(s + ",") == st.parts + [Strip(st.cur)]
            && (SplitValues(s) == SplitValues(s + ",") <==> |st.cur| > 0)
  {
    var st := Scan(s, Start);
    ScanAppend(s, ",", Start);
    ScanCommaOutside(st);
    if |st.cur| == 0 {
      assert |SplitValues(s)| != |SplitValues(s + ",")|;
    }
  }

  // ---------------------------------------------------------------------------
  // Printing a value back as a literal, and reading the list back.

  /** A text holding both quote characters cannot be written as a literal. */
  predicate Renderable(v: Value) {
    v.Str? ==> !('"' in v.s && '\'' in v.s)
  }

  predicate AllRenderable(vs: seq<Value>) {
    forall i :: 0 <= i < |vs| ==> Renderable(vs[i])
  }

  function QuoteFor(t: string): char {
    if '"' !in t then '"' else '\''
  }

  /** The literal a user would type for `v`. */
  function Render(v: Value): string
    requires Renderable(v)
  {
    match v
    case Int(n) => IntToString(n)
    case Bool(b) => BoolWord(b)
    case Str(t) => [QuoteFor(t)] + t + [QuoteFor(t)]
  }

  /** The literals of a list, each as printed. */
  function RenderAll(vs: seq<Value>): (ps: seq<string>)
    requires AllRenderable(vs)
    ensures |ps| == |vs|
  {
    seq(|vs|, i requires 0 <= i < |vs| => Render(vs[i]))
  }

  /** Pieces written out with `, ` between them. */
  function JoinPieces(ps: seq<string>): string {
    if |ps| == 0 then ""
    else if |ps| == 1 then ps[0]
    else ps[0] + ", " + JoinPieces(ps[1..])
  }

  /** `(lit, lit, ...)` for a list of values. */
  function RenderValues(vs: seq<Value>): string
    requires AllRenderable(vs)
  {
    "(" + JoinPieces(RenderAll(vs)) + ")"
  }

  /** A piece the splitter passes through whole: non-empty, trimmed, and either
      free of quotes and commas or one quoted span. */
  predicate IsToken(x: string) {
    && |x| > 0
    && Trimmed(x)
    && (Plain(x) || (|x| >= 2 && IsQuoteChar(x[0]) && x[|x| - 1] == x[0] && x[0] !in x[1..|x| - 1]))
  }

  lemma ScanToken(x: string, st: ScanState)
    requires IsToken(x) && st.quote.Outside?
    ensures Scan(x, st) == ScanState(st.parts, st.cur + x, Outside)
  {
    if Plain(x) {
      ScanPlain(x, st);
    } else {
      var t := x[1..|x| - 1];
      assert x == [x[0]] + t + [x[0]];
      ScanQuotedSpan(x[0], t, st);
    }
  }

  lemma ScanTokenThen(x: string, y: string, st: ScanState)
    requires IsToken(x) && st.quote.Outside?
    ensures Scan(x + y, st) == Scan(y, ScanState(st.parts, st.cur + x, Outside))
  {
    ScanToken(x, st);
    ScanAppend(x, y, st);
  }

  lemma ScanCommaThenRest(rest: string, st: ScanState)
    requires st.quote.Outside?
    ensures Scan(", " + rest, st) == Scan(" " + rest, ScanState(st.parts + [Strip(st.cur)], "", Outside))
  {
    assert ", " + rest == "," + (" " + rest);
    ScanAppend(",", " " + rest, st);
    ScanCommaOutside(st);
  }

  lemma ScanBlankThenRest(rest: string, parts: seq<string>)
    ensures Scan(" " + rest, ScanState(parts, "", Outside)) == Scan(rest, ScanState(parts, " ", Outside))
  {
    var st := ScanState(parts, "", Outside);
    ScanAppend(" ", rest, st);
    assert Plain(" ");
    ScanPlain(" ", st);
    assert "" + " " == " ";
  }

  /** Scanning a token and the `, ` after it closes one piece and leaves a blank. */
  lemma ScanPastSeparator(x: string, rest: string, parts: seq<string>, w: string)
    requires IsToken(x) && AllSpace(w)
    ensures Scan(x + ", " + rest, ScanState(parts, w, Outside))
            == Scan(rest, ScanState(parts + [x], " ", Outside))
  {
    assert x + ", " + rest == x + (", " + rest);
    ScanTokenThen(x, ", " + rest, ScanState(parts, w, Outside));
    StripSkipsLeadingSpace(w, x);
    StripKeepsTrimmed(x);
    ScanCommaThenRest(rest, ScanState(parts, w + x, Outside));
    ScanBlankThenRest(rest, parts + [x]);
  }

  lemma ScanLastToken(x: string, parts: seq<string>, w: string)
    requires IsToken(x) && AllSpace(w)
    ensures Finish(Scan(x, ScanState(parts, w, Outside))) == parts + [x]
  {
    ScanToken(x, ScanState(parts, w, Outside));
    StripSkipsLeadingSpace(w, x);
    StripKeepsTrimmed(x);
  }

  predicate AllTokens(ps: seq<string>) {
    forall i :: 0 <= i < |ps| ==> IsToken(ps[i])
  }

  /** Tokens joined with `, ` split back into the same tokens. */
  lemma {:induction false} ScanJoined(ps: seq<string>, parts: seq<string>, w: string)
    requires |ps| > 0 && AllTokens(ps) && AllSpace(w)
    ensures Finish(Scan(JoinPieces(ps), ScanState(parts, w, Outside))) == parts + ps
  {
    if |ps| == 1 {
      ScanLastToken(ps[0], parts, w);
      assert ps == [ps[0]];
    } else {
      var rest := JoinPieces(ps[1..]);
      ScanPastSeparator(ps[0], rest, parts, w);
      assert AllSpace(" ");
      ScanJoined(ps[1..], parts + [ps[0]], " ");
      assert parts + [ps[0]] + ps[1..] == parts + ps;
    }
  }

  lemma IntTextToken(n: int)
    ensures IsToken(IntToString(n))
  {
    var p := IntToString(n);
    assert p[0] == '-' || IsDigit(p[0]);
    assert IsDigit(p[|p| - 1]) by {
      if n < 0 {
        assert p[|p| - 1] == p[1..][|p| - 2];
      }
    }
    assert Plain(p) by {
      forall i | 0 <= i < |p|
        ensures !IsQuoteChar(p[i]) && p[i] != ','
      {
        if n < 0 && i > 0 {
          assert p[i] == p[1..][i - 1];
        }
      }
    }
  }

  lemma BoolWordToken(b: bool)
    ensures IsToken(BoolWord(b))
  {
    assert Plain(BoolWord(b));
  }

  lemma QuotedToken(q: char, t: string)
    requires IsQuoteChar(q) && q !in t
    ensures IsToken([q] + t + [q])
  {
    var p := [q] + t + [q];
    assert p[1..|p| - 1] == t;
  }

  /** Every printed literal is a token and reads back as its value. */
  lemma RenderedToken(v: Value)
    requires Renderable(v)
    ensures IsToken(Render(v)) && Classify(Render(v)) == v
  {
    match v
    case Int(n) =>
      IntTextToken(n);
      ClassifyIntText(n);
    case Bool(b) =>
      BoolWordToken(b);
      LowerBoolWord(b);
      ClassifyBool(BoolWord(b), b);
    case Str(t) =>
      QuotedToken(QuoteFor(t), t);
      ClassifyQuoted(QuoteFor(t), t);
  }

  lemma ClassifyRenderAll(vs: seq<Value>)
    requires AllRenderable(vs)
    ensures AllTokens(RenderAll(vs)) && ClassifyPieces(RenderAll(vs)) == vs
  {
    var ps := RenderAll(vs);
    forall i | 0 <= i < |vs|
      ensures IsToken(ps[i]) && ClassifyPieces(ps)[i] == vs[i]
    {
      var p := Render(vs[i]);
      assert ps[i] == p;
      RenderedToken(vs[i]);
      StripKeepsTrimmed(p);
      assert ClassifyPieces(ps)[i] == Classify(Strip(p));
    }
  }

  /** Tokens joined with `, ` split back into the same tokens. */
  lemma SplitJoined(ps: seq<string>)
    requires |ps| > 0 && AllTokens(ps)
    ensures SplitValues(JoinPieces(ps)) == ps
  {
    var j := JoinPieces(ps);
    ScanJoined(ps, [], "");
    assert Finish(Scan(j, Start)) == [] + ps;
    assert [] + ps == ps;
  }

  /** Reading back a printed value list gives the values: quoted text keeps its
      commas, and ints and bools come back with their types. */
  lemma ParseValuesRoundTrip(vs: seq<Value>)
    requires AllRenderable(vs)
    ensures ParseValues(RenderValues(vs)) == vs
  {
    var ps := RenderAll(vs);
    var j := JoinPieces(ps);
    var s := RenderValues(vs);
    StripKeepsTrimmed(s);
    UnparenthesizeWrapped(j);
    if |vs| == 0 {
      assert j == "";
      assert SplitValues(j) == [];
    } else {
      ClassifyRenderAll(vs);
      SplitJoined(ps);
    }
  }

  lemma JoinThree(a: string, b: string, c: string)
    ensures JoinPieces([a, b, c]) == a + ", " + b + ", " + c
  {
    assert [a, b, c][1..] == [b, c];
    assert [b, c][1..] == [c];
    assert JoinPieces([c]) == c;
    assert JoinPieces([b, c]) == b + ", " + c;
    assert JoinPieces([a, b, c]) == a + ", " + (b + ", " + c);
  }

  lemma RenderDocExamplePieces()
    ensures RenderAll([Str("Sergei"), Int(28), Bool(true)]) == ["\"Sergei\"", "28", "true"]
  {
    var vs := [Str("Sergei"), Int(28), Bool(true)];
    var ps := ["\"Sergei\"", "28", "true"];
    SmallIntTexts();
    assert '"' !in "Sergei";
    assert Render(vs[0]) == ps[0] && Render(vs[1]) == ps[1] && Render(vs[2]) == ps[2];
  }

  lemma RenderDocExample()
    ensures RenderValues([Str("Sergei"), Int(28), Bool(true)]) == "(\"Sergei\", 28, true)"
  {
    var ps := ["\"Sergei\"", "28", "true"];
    RenderDocExamplePieces();
    JoinThree(ps[0], ps[1], ps[2]);
  }

  /** The example in the parser's own documentation. */
  lemma ParseValuesDocExample()
    ensures ParseValues("(\"Sergei\", 28, true)") == [Str("Sergei"), Int(28), Bool(true)]
  {
    RenderDocExample();
    ParseValuesRoundTrip([Str("Sergei"), Int(28), Bool(true)]);
  }

  lemma RenderQuotedCommaExamplePieces()
    ensures RenderAll([Str("A, B"), Int(1), Bool(true)]) == ["\"A, B\"", "1", "true"]
  {
    var vs := [Str("A, B"), Int(1), Bool(true)];
    var ps := ["\"A, B\"", "1", "true"];
    SmallIntTexts();
    assert '"' !in "A, B";
    assert Render(vs[0]) == ps[0] && Render(vs[1]) == ps[1] && Render(vs[2]) == ps[2];
  }

  lemma RenderQuotedCommaExample()
    ensures RenderValues([Str("A, B"), Int(1), Bool(true)]) == "(\"A, B\", 1, true)"
  {
    var ps := ["\"A, B\"", "1", "true"];
    RenderQuotedCommaExamplePieces();
    JoinThree(ps[0], ps[1], ps[2]);
  }

  /** A comma inside quotes is part of the text, not a split point. */
  lemma ParseValuesQuotedComma()
    ensures ParseValues("(\"A, B\", 1, true)") == [Str("A, B"), Int(1), Bool(true)]
  {
    RenderQuotedCommaExample();
    ParseValuesRoundTrip([Str("A, B"), Int(1), Bool(true)]);
  }

  /** `()` is the empty list. */
  lemma ParseValuesEmpty()
    ensures ParseValues("()") == []
  {
    assert RenderValues([]) == "()";
    ParseValuesRoundTrip([]);
  }
}

=== FILE: pytext.dfy ===
/** The few Python `str` operations the record store relies on:
    `strip()`, `lower()`, `split(sep, 1)`, `int(text)` and `str(int)`. */
module PyText {
  import opened Outcomes

  /** Python's `str.isspace()`: the characters `strip()` removes. */
  predicate IsSpace(c: char) {
    var n := c as int;
    (0x09 <= n <= 0x0D) || (0x1C <= n <= 0x20) || n == 0x85 || n == 0xA0
    || n == 0x1680 || (0x2000 <= n <= 0x200A) || n == 0x2028 || n == 0x2029
    || n == 0x202F || n == 0x205F || n == 0x3000
  }

  predicate AllSpace(s: string) {
    forall i :: 0 <= i < |s| ==> IsSpace(s[i])
  }

  /** Index of the first non-whitespace character of `s` at or after `i`, or `|s|`. */
  function SkipSpace(s: string, i: nat): (k: nat)
    requires i <= |s|
    ensures i <= k <= |s|
    ensures forall m :: i <= m < k ==> IsSpace(s[m])
    ensures k < |s| ==> !IsSpace(s[k])
    decreases |s| - i
  {
    if i < |s| && IsSpace(s[i]) then SkipSpace(s, i + 1) else i
  }

  /** The end of `s[lo..j]` once its trailing whitespace is dropped. */
  function SkipSpaceBack(s: string, lo: nat, j: nat): (k: nat)
    requires lo <= j <= |s|
    ensures lo <= k <= j
    ensures forall m :: k <= m < j ==> IsSpace(s[m])
    ensures k > lo ==> !IsSpace(s[k - 1])
    decreases j - lo
  {
    if j > lo && IsSpace(s[j - 1]) then SkipSpaceBack(s, lo, j - 1) else j
  }

  /** Neither starts nor ends with whitespace. */
  predicate Trimmed(x: string) {
    |x| == 0 || (!IsSpace(x[0]) && !IsSpace(x[|x| - 1]))
  }

  /** Where the text `strip()` keeps begins and ends. */
  function StripStart(s: string): nat {
    SkipSpace(s, 0)
  }

  function StripEnd(s: string): nat {
    SkipSpaceBack(s, StripStart(s), |s|)
  }

  /** `s.strip()`: `s` without its leading and trailing whitespace. */
  function Strip(s: string): (r: string)
    ensures |r| <= |s| && Trimmed(r)
  {
    s[StripStart(s)..StripEnd(s)]
  }

  /** `strip()` is pinned down by what it promises: whenever `s` is whitespace,
      then a text that neither starts nor ends with whitespace, then whitespace,
      `strip()` returns that middle text. */
  lemma StripOfPadded(a: string, r: string, b: string)
    requires AllSpace(a) && AllSpace(b) && Trimmed(r)
    ensures Strip(a + r + b) == r
    ensures |r| > 0 ==> StripStart(a + r + b) == |a| && StripEnd(a + r + b) == |a| + |r|
  {
    var s := a + r + b;
    var i, j := StripStart(s), StripEnd(s);
    if |r| == 0 {
      assert forall m :: 0 <= m < |s| ==> IsSpace(s[m]) by {
        forall m | 0 <= m < |s| ensures IsSpace(s[m]) {
          if m < |a| { assert s[m] == a[m]; } else { assert s[m] == b[m - |a|]; }
        }
      }
    } else {
      assert s[|a|] == r[0];
      assert s[|a| + |r| - 1] == r[|r| - 1];
      assert forall m :: 0 <= m < |a| ==> s[m] == a[m];
      assert i == |a|;
      assert forall m :: |a| + |r| <= m < |s| ==> s[m] == b[m - |a| - |r|];
      assert j == |a| + |r|;
      assert s[i..j] == r;
    }
  }

  /** What `strip()` removes is whitespace at the two ends and nothing else. */
  lemma StripRemovesOnlyEndSpace(s: string)
    ensures StripStart(s) <= StripEnd(s) <= |s|
    ensures s == s[..StripStart(s)] + Strip(s) + s[StripEnd(s)..]
    ensures AllSpace(s[..StripStart(s)]) && AllSpace(s[StripEnd(s)..])
  {
    var i, j := StripStart(s), StripEnd(s);
    assert s == s[..i] + s[i..j] + s[j..];
  }

  lemma AllSpaceJoin(a: string, b: string)
    requires AllSpace(a) && AllSpace(b)
    ensures AllSpace(a + b)
  {
  }

  /** A text that neither starts nor ends with whitespace is left alone by `strip()`. */
  lemma StripKeepsTrimmed(x: string)
    requires Trimmed(x)
    ensures Strip(x) == x
  {
    StripOfPadded("", x, "");
    assert "" + x + "" == x;
  }

  lemma StripIdempotent(s: string)
    ensures Strip(Strip(s)) == Strip(s)
  {
    StripKeepsTrimmed(Strip(s));
  }

  lemma StripOfDoublyPadded(w: string, a: string, r: string, b: string)
    requires AllSpace(w) && AllSpace(a) && AllSpace(b) && Trimmed(r)
    ensures Strip(w + (a + r + b)) == r
  {
    AllSpaceJoin(w, a);
    assert w + (a + r + b) == (w + a) + r + b;
    StripOfPadded(w + a, r, b);
  }

  /** Leading whitespace makes no difference to `strip()`. */
  lemma StripSkipsLeadingSpace(w: string, x: string)
    requires AllSpace(w)
    ensures Strip(w + x) == Strip(x)
  {
    StripRemovesOnlyEndSpace(x);
    var a, r, b := x[..StripStart(x)], Strip(x), x[StripEnd(x)..];
    StripOfDoublyPadded(w, a, r, b);
  }

  /** ASCII part of Python's `str.lower()`. */
  function LowerChar(c: char): char {
    if 'A' <= c <= 'Z' then (c as int + 32) as char else c
  }

  function Lower(s: string): (r: string)
    ensures |r| == |s|
  {
    seq(|s|, i requires 0 <= i < |s| => LowerChar(s[i]))
  }

  /** Comparing `lower()` with a lower-case word (letters and digits) ignores
      case: a text lowers to the word exactly when it spells the word with any
      of its letters in upper case. */
  lemma LowerCaseInsensitive(p: string, w: string)
    requires forall i :: 0 <= i < |w| ==> 'a' <= w[i] <= 'z' || '0' <= w[i] <= '9'
    ensures Lower(p) == w <==>
              |p| == |w| && forall i :: 0 <= i < |p| ==>
                p[i] == w[i] || ('a' <= w[i] <= 'z' && p[i] as int == w[i] as int - 32)
  {
    if |p| == |w| {
      forall i | 0 <= i < |p|
        ensures LowerChar(p[i]) == w[i] <==>
                  p[i] == w[i] || ('a' <= w[i] <= 'z' && p[i] as int == w[i] as int - 32)
      {
      }
      if forall i :: 0 <= i < |p| ==> LowerChar(p[i]) == w[i] {
        assert Lower(p) == w;
      }
    }
  }

  /** Index of the first `c` in `s`, or `|s|` when there is none. */
  function IndexOf(s: string, c: char): (k: nat)
    ensures k <= |s|
    ensures c !in s[..k]
    ensures k < |s| ==> s[k] == c
  {
    if |s| == 0 then 0
    else if s[0] == c then 0
    else
      var k := 1 + IndexOf(s[1..], c);
      assert s[..k] == [s[0]] + s[1..][..k - 1];
      k
  }

  /** `s.split(sep, 1)` when it yields two parts; `None` when `sep` does not occur.
      The split point is the first `sep`, so the second part may contain more. */
  function SplitOnce(s: string, sep: char): (r: Option<(string, string)>)
    ensures r.None? <==> sep !in s
    ensures r.Some? ==> s == r.value.0 + [sep] + r.value.1 && sep !in r.value.0
  {
    var k := IndexOf(s, sep);
    if k == |s| then
      assert s[..k] == s;
      None
    else
      assert s == s[..k] + [sep] + s[k + 1..];
      Some((s[..k], s[k + 1..]))
  }

  /** Splitting a text built around one separator gives back its two halves,
      whatever the second half holds. */
  lemma SplitOnceAtFirst(a: string, sep: char, b: string)
    requires sep !in a
    ensures SplitOnce(a + [sep] + b, sep) == Some((a, b))
  {
    var s := a + [sep] + b;
    assert s[|a|] == sep;
    var r := SplitOnce(s, sep);
    var a', b' := r.value.0, r.value.1;
    assert |a'| == |a|;
    assert a' == s[..|a|] == a;
    assert b' == s[|a| + 1..] == b;
  }

  predicate IsDigit(c: char) {
    '0' <= c <= '9'
  }

  predicate AllDigits(s: string) {
    forall i :: 0 <= i < |s| ==> IsDigit(s[i])
  }

  function DigitValue(c: char): nat
    requires IsDigit(c)
  {
    c as int - '0' as int
  }

  function DigitChar(d: nat): (c: char)
    requires d < 10
    ensures IsDigit(c) && DigitValue(c) == d
  {
    ('0' as int + d) as char
  }

  /** Base-10 value of a run of ASCII digits, most significant first. */
  function DigitsValue(s: string): nat
    requires AllDigits(s)
  {
    if |s| == 0 then 0 else DigitsValue(s[..|s| - 1]) * 10 + DigitValue(s[|s| - 1])
  }

  /** `str(n)` for a natural number: its decimal digits, without leading zeros. */
  function NatToString(n: nat): (r: string)
    ensures |r| > 0 && AllDigits(r)
    ensures r[0] == '0' ==> r == "0"
  {
    if n < 10 then [DigitChar(n)] else NatToString(n / 10) + [DigitChar(n % 10)]
  }

  /** `str(n)` for any Python int. */
  function IntToString(n: int): (r: string)
    ensures |r| > 0
    ensures (r[0] == '-') == (n < 0)
    ensures AllDigits(if n < 0 then r[1..] else r)
  {
    if n < 0 then "-" + NatToString(-n) else NatToString(n)
  }

  /** The whitespace `int()` skips around its digits: what `strip()` removes,
      except the ASCII information separators U+001C..U+001F, which `int()`
      rejects. */
  predicate IsIntSpace(c: char) {
    IsSpace(c) && !(0x1C <= c as int <= 0x1F)
  }

  predicate AllIntSpace(s: string) {
    forall i :: 0 <= i < |s| ==> IsIntSpace(s[i])
  }

  /** Python's `int(text)`: surrounding whitespace, an optional sign, then one or
      more ASCII digits; `None` stands for the `ValueError` it raises otherwise.
      A sign or digit is never whitespace, so the text between the whitespace
      `strip()` removes is what must be the number, and what is removed must
      be whitespace to `int()` as well. */
  function ParseInt(s: string): Option<int> {
    if AllIntSpace(s[..StripStart(s)]) && AllIntSpace(s[StripEnd(s)..]) then
      ParseSignedDigits(Strip(s))
    else None
  }

  /** An optional `+` or `-` followed by one or more ASCII digits. */
  function ParseSignedDigits(t: string): Option<int> {
    if |t| > 0 && (t[0] == '+' || t[0] == '-') then
      var ds := t[1..];
      if |ds| > 0 && AllDigits(ds) then
        var v: int := DigitsValue(ds);
        Some(if t[0] == '-' then -v else v)
      else None
    else if |t| > 0 && AllDigits(t) then Some(DigitsValue(t))
    else None
  }

  lemma {:induction false} NatToStringRoundTrip(n: nat)
    ensures DigitsValue(NatToString(n)) == n
  {
    if n >= 10 {
      var s := NatToString(n);
      assert s[..|s| - 1] == NatToString(n / 10);
      NatToStringRoundTrip(n / 10);
    }
  }

  lemma ParseIntOfTrimmed(t: string)
    requires Strip(t) == t
    ensures ParseInt(t) == ParseSignedDigits(t)
  {
    assert StripStart(t) == 0 && StripEnd(t) == |t|;
    assert t[..0] == [] && t[|t|..] == [];
  }

  /** `int()` fails on a text that starts with an information separator, although
      `strip()` would remove it. */
  lemma ParseIntRejectsSeparator(c: char, t: string)
    requires 0x1C <= c as int <= 0x1F
    ensures ParseInt([c] + t) == None
  {
    var s := [c] + t;
    assert IsSpace(s[0]);
    var i := StripStart(s);
    assert i > 0;
    assert s[..i][0] == c;
  }

  /** A run of digits parses to its value. */
  lemma ParseIntOfDigits(ds: string)
    requires |ds| > 0 && AllDigits(ds)
    ensures ParseInt(ds) == Some(DigitsValue(ds))
  {
    assert IsDigit(ds[0]) && IsDigit(ds[|ds| - 1]);
    StripKeepsTrimmed(ds);
    ParseIntOfTrimmed(ds);
    SignedDigitsOfDigits(ds);
  }

  lemma SignedDigitsOfDigits(ds: string)
    requires |ds| > 0 && AllDigits(ds)
    ensures ParseSignedDigits(ds) == Some(DigitsValue(ds))
  {
    assert IsDigit(ds[0]);
  }

  lemma SignedDigitsOfNegated(ds: string)
    requires |ds| > 0 && AllDigits(ds)
    ensures ParseSignedDigits("-" + ds) == Some(-(DigitsValue(ds) as int))
  {
    assert ("-" + ds)[1..] == ds;
  }

  /** A `-` followed by a run of digits parses to the negated value. */
  lemma ParseIntOfNegatedDigits(ds: string)
    requires |ds| > 0 && AllDigits(ds)
    ensures ParseInt("-" + ds) == Some(-(DigitsValue(ds) as int))
  {
    var s := "-" + ds;
    assert s[0] == '-' && s[|s| - 1] == ds[|ds| - 1];
    assert IsDigit(ds[|ds| - 1]);
    StripKeepsTrimmed(s);
    ParseIntOfTrimmed(s);
    SignedDigitsOfNegated(ds);
  }

  /** The texts `int()` accepts, split into their parts: leading whitespace, an
      optional sign, one or more ASCII digits, trailing whitespace, together
      with the number they denote. */
  predicate IntText(w1: string, g: string, ds: string, w2: string, n: int) {
    AllIntSpace(w1) && AllIntSpace(w2) && (g == "" || g == "+" || g == "-")
    && |ds| > 0 && AllDigits(ds)
    && n == (if g == "-" then -(DigitsValue(ds) as int) else DigitsValue(ds))
  }

  /** Every text of that shape parses, to the number it denotes. */
  lemma ParseIntOfPadded(w1: string, g: string, ds: string, w2: string, n: int)
    requires IntText(w1, g, ds, w2, n)
    ensures ParseInt(w1 + g + ds + w2) == Some(n)
  {
    var t := g + ds;
    JoinFour(w1, g, ds, w2);
    SignedDigitsTrimmed(g, ds);
    ParseIntOfIntSpaced(w1, t, w2);
    SignedDigitsOfSign(g, ds);
  }

  /** Regrouping a four-part concatenation. Kept as its own step so that the
      proofs using it do not search for it among the other sequence facts. */
  lemma JoinFour(a: string, b: string, c: string, d: string)
    ensures a + b + c + d == a + (b + c) + d
  {
  }

  lemma SignedDigitsTrimmed(g: string, ds: string)
    requires g == "" || g == "+" || g == "-"
    requires |ds| > 0 && AllDigits(ds)
    ensures Trimmed(g + ds)
  {
    var t := g + ds;
    assert t[0] == (if g == "" then ds[0] else g[0]);
    assert IsDigit(ds[0]);
    assert t[|t| - 1] == ds[|ds| - 1];
    assert IsDigit(ds[|ds| - 1]);
  }

  lemma SignedDigitsOfSign(g: string, ds: string)
    requires g == "" || g == "+" || g == "-"
    requires |ds| > 0 && AllDigits(ds)
    ensures ParseSignedDigits(g + ds) == Some(if g == "-" then -(DigitsValue(ds) as int) else DigitsValue(ds))
  {
    if g == "" {
      assert g + ds == ds;
      SignedDigitsOfDigits(ds);
    } else {
      var t := g + ds;
      assert t[0] == g[0] && t[1..] == ds;
      var v: int := DigitsValue(ds);
      assert ParseSignedDigits(t) == Some(if t[0] == '-' then -v else v);
    }
  }

  /** `int()` reads the text between whitespace it accepts. */
  lemma ParseIntOfIntSpaced(w1: string, t: string, w2: string)
    requires AllIntSpace(w1) && AllIntSpace(w2) && Trimmed(t) && |t| > 0
    ensures ParseInt(w1 + t + w2) == ParseSignedDigits(t)
  {
    var s := w1 + t + w2;
    assert AllSpace(w1) && AllSpace(w2) by {
      assert forall m :: 0 <= m < |w1| ==> IsIntSpace(w1[m]);
      assert forall m :: 0 <= m < |w2| ==> IsIntSpace(w2[m]);
    }
    StripOfPadded(w1, t, w2);
    assert s[..|w1|] == w1;
    assert s[|w1| + |t|..] == w2;
  }

  /** Conversely, every text `int()` accepts has that shape, and its value is
      the number the shape denotes: together with `ParseIntOfPadded`, `int()`
      accepts exactly these texts. */
  lemma ParseIntAcceptsOnlyPadded(s: string)
    requires ParseInt(s).Some?
    ensures exists w1, g, ds, w2 :: s == w1 + g + ds + w2 && IntText(w1, g, ds, w2, ParseInt(s).value)
  {
    var w1, t, w2 := ParseIntSpaced(s);
    var g, ds := SignedDigitsParts(t);
    JoinFour(w1, g, ds, w2);
    assert IntText(w1, g, ds, w2, ParseInt(s).value);
  }

  /** A text `int()` accepts is whitespace it skips, signed digits, whitespace. */
  lemma ParseIntSpaced(s: string) returns (w1: string, t: string, w2: string)
    requires ParseInt(s).Some?
    ensures s == w1 + t + w2 && AllIntSpace(w1) && AllIntSpace(w2)
    ensures ParseSignedDigits(t) == ParseInt(s)
  {
    StripRemovesOnlyEndSpace(s);
    w1, t, w2 := s[..StripStart(s)], Strip(s), s[StripEnd(s)..];
  }

  /** Signed digits that parse are an optional sign and one or more digits. */
  lemma SignedDigitsParts(t: string) returns (g: string, ds: string)
    requires ParseSignedDigits(t).Some?
    ensures t == g + ds && (g == "" || g == "+" || g == "-")
    ensures |ds| > 0 && AllDigits(ds)
    ensures ParseSignedDigits(t).value == if g == "-" then -(DigitsValue(ds) as int) else DigitsValue(ds)
  {
    if t[0] == '+' || t[0] == '-' {
      g, ds := t[..1], t[1..];
      assert t == g + ds;
    } else {
      g, ds := "", t;
      assert t == g + ds;
    }
  }

  lemma NatToStringParses(n: nat)
    ensures ParseInt(NatToString(n)) == Some(n)
  {
    NatToStringRoundTrip(n);
    ParseIntOfDigits(NatToString(n));
  }

  lemma NegatedNatToStringParses(n: nat)
    requires n > 0
    ensures ParseInt("-" + NatToString(n)) == Some(-(n as int))
  {
    var ds := NatToString(n);
    NatToStringRoundTrip(n);
    ParseIntOfNegatedDigits(ds);
    assert -(DigitsValue(ds) as int) == -(n as int);
  }

  /** `int(str(n)) == n`. */
  lemma IntToStringRoundTrip(n: int)
    ensures ParseInt(IntToString(n)) == Some(n)
  {
    if n < 0 {
      NegatedNatToStringParses(-n);
    } else {
      NatToStringParses(n);
    }
  }

  /** `str(n)` for the small numbers the examples use. */
  lemma SmallIntTexts()
    ensures IntToString(28) == "28" && IntToString(1) == "1" && IntToString(0) == "0"
  {
    var d0, d1, d2, d8 := DigitChar(0), DigitChar(1), DigitChar(2), DigitChar(8);
    assert d0 == '0' && d1 == '1' && d2 == '2' && d8 == '8';
    assert NatToString(2) == [d2];
    assert NatToString(28) == NatToString(28 / 10) + [DigitChar(28 % 10)];
    assert NatToString(28) == [d2] + [d8] == "28";
    assert NatToString(1) == [d1] == "1";
    assert NatToString(0) == [d0] == "0";
  }

  /** Different integers print differently. */
  lemma IntToStringInjective(m: int, n: int)
    ensures IntToString(m) == IntToString(n) <==> m == n
  {
    if IntToString(m) == IntToString(n) {
      IntToStringRoundTrip(m);
      IntToStringRoundTrip(n);
    }
  }
}

=== FILE: records.dfy ===
/** The record engine: coercing inserted values to their column types, and
    insert, select, update and delete over one table's records. */
module Records {
  import opened Outcomes
  import opened PyText
  import opened Values
  import opened Schema

  // ---------------------------------------------------------------------------
  // Coercion of a value to a column type.

  predicate HasType(v: Value, t: ColType) {
    match t
    case IntCol => v.Int?
    case StrCol => v.Str?
    case BoolCol => v.Bool?
  }

  /** `validate_value`: `None` is the coercion failure. An int column keeps an
      int and otherwise takes `int(value)`; a text column takes `str(value)`; a
      bool column keeps a bool and otherwise reads `true`/`1`/`false`/`0` from
      the lower-cased text. */
  function Coerce(v: Value, t: ColType): (r: Option<Value>)
    ensures r.Some? ==> HasType(r.value, t)
    ensures HasType(v, t) ==> r == Some(v)
    ensures t == StrCol ==> r == Some(Str(PyStr(v)))
    ensures t == IntCol ==> (r.None? <==> v.Str? && ParseInt(v.s).None?)
    ensures t == IntCol && r.Some? && v.Str? ==> ParseInt(v.s) == Some(r.value.i)
    ensures t == IntCol && r.Some? && !v.Str? ==> PyEq(r.value, v)
  {
    match t
    case IntCol =>
      (match v
       case Int(_) => Some(v)
       case Bool(b) => Some(Int(BoolToInt(b)))
       case Str(s) =>
         match ParseInt(s)
         case None => None
         case Some(n) => Some(Int(n)))
    case StrCol => Some(Str(PyStr(v)))
    case BoolCol =>
      if v.Bool? then Some(v)
      else
        var w := Lower(PyStr(v));
        if w == "true" || w == "1" then Some(Bool(true))
        else if w == "false" || w == "0" then Some(Bool(false))
        else None
  }

  /** Text reads as a bool exactly when it is, ignoring ASCII case, one of the
      four accepted words. */
  lemma CoerceTextToBool(s: string, b: bool)
    ensures Coerce(Str(s), BoolCol) == Some(Bool(b))
            <==> Lower(s) == (if b then "true" else "false") || Lower(s) == (if b then "1" else "0")
  {
  }

  /** `true`/`false` with any of their letters in upper case coerce to the bool. */
  lemma CoerceBoolSpelling(p: string, b: bool)
    requires var w := if b then "true" else "false";
             |p| == |w| && forall i :: 0 <= i < |p| ==> p[i] == w[i] || p[i] as int == w[i] as int - 32
    ensures Coerce(Str(p), BoolCol) == Some(Bool(b))
  {
    var w := if b then "true" else "false";
    assert forall i :: 0 <= i < |w| ==> 'a' <= w[i] <= 'z';
    LowerCaseInsensitive(p, w);
    CoerceTextToBool(p, b);
  }

  lemma LowerOfIntText(n: int)
    ensures Lower(IntToString(n)) == IntToString(n)
  {
    var p := IntToString(n);
    forall i | 0 <= i < |p|
      ensures LowerChar(p[i]) == p[i]
    {
      if n < 0 && i > 0 {
        assert p[1..][i - 1] == p[i];
      }
    }
  }

  lemma IntTextIsNotAWord(n: int)
    ensures IntToString(n) != "true" && IntToString(n) != "false"
  {
    var p := IntToString(n);
    if n >= 0 {
      assert IsDigit(p[0]);
    }
  }

  /** An int reads as a bool only when it is 1 or 0, and then as the bool equal
      to it. */
  lemma CoerceIntToBool(n: int)
    ensures Coerce(Int(n), BoolCol) == if n == 1 then Some(Bool(true))
                                       else if n == 0 then Some(Bool(false))
                                       else None
  {
    LowerOfIntText(n);
    IntTextIsNotAWord(n);
    SmallIntTexts();
    IntToStringInjective(n, 1);
    IntToStringInjective(n, 0);
  }

  /** Coercing a number or a bool to a number or a bool keeps it equal, under
      Python's `==`, to what it was. */
  lemma CoerceKeepsNumbers(v: Value, t: ColType)
    requires !v.Str? && t != StrCol && Coerce(v, t).Some?
    ensures PyEq(Coerce(v, t).value, v)
  {
    if v.Int? && t == BoolCol {
      CoerceIntToBool(v.i);
    }
  }

  /** Writing a typed value as text and coercing the text back to the type
      gives the value again. */
  lemma CoerceTextRoundTrip(v: Value, t: ColType)
    requires HasType(v, t)
    ensures Coerce(Coerce(v, StrCol).value, t) == Some(v)
  {
    match v
    case Int(n) =>
      IntToStringRoundTrip(n);
    case Bool(b) =>
      var w := if b then "True" else "False";
      assert Lower(w) == if b then "true" else "false";
    case Str(_) =>
  }

  // ---------------------------------------------------------------------------
  // ID assignment.

  /** Index of a record holding the largest `ID`. */
  function MaxIdAt(t: Table): (k: nat)
    requires |t| > 0 && NumericIds(t)
    ensures k < |t|
    ensures forall i :: 0 <= i < |t| ==> IdOf(t[i]) <= IdOf(t[k])
  {
    if |t| == 1 then 0
    else
      var k := MaxIdAt(t[..|t| - 1]);
      assert forall i :: 0 <= i < |t| - 1 ==> t[..|t| - 1][i] == t[i];
      if IdOf(t[|t| - 1]) > IdOf(t[k]) then |t| - 1 else k
  }

  /** The `ID` `insert` gives a new record: one past the largest, or 1 for an
      empty table. */
  function NextId(t: Table): (n: int)
    requires NumericIds(t)
    ensures forall i :: 0 <= i < |t| ==> IdOf(t[i]) < n
    ensures |t| == 0 ==> n == 1
    ensures |t| > 0 ==> exists i :: 0 <= i < |t| && n == IdOf(t[i]) + 1
  {
    if |t| == 0 then 1 else IdOf(t[MaxIdAt(t)]) + 1
  }

  // ---------------------------------------------------------------------------
  // Insert.

  datatype InsertError =
    | TableNotFound
    | ArityMismatch(expected: int, got: nat)
    | InvalidValue(value: Value, column: Column)

  function Names(cols: seq<Column>): set<string> {
    set i | 0 <= i < |cols| :: cols[i].name
  }

  /** No later column has the same name, so its value is the one that stays. */
  predicate LastOfName(cols: seq<Column>, i: nat)
    requires i < |cols|
  {
    forall j :: i < j < |cols| ==> cols[j].name != cols[i].name
  }

  /** Index of the first value that does not coerce to its column's type, or
      `|vals|` when all of them do. */
  function FirstInvalid(cols: seq<Column>, vals: seq<Value>): (k: nat)
    requires |cols| == |vals|
    ensures k <= |vals|
    ensures forall j :: 0 <= j < k ==> Coerce(vals[j], cols[j].typ).Some?
    ensures k < |vals| ==> Coerce(vals[k], cols[k].typ).None?
  {
    if |vals| == 0 then 0
    else if Coerce(vals[0], cols[0].typ).None? then 0
    else 1 + FirstInvalid(cols[1..], vals[1..])
  }

  /** The loop of `insert` that fills the record: each value is coerced and
      stored under its column's name, in order; the first failure abandons the
      record. */
  function BuildRecord(base: Record, cols: seq<Column>, vals: seq<Value>): Result<Record, InsertError>
    requires |cols| == |vals|
    decreases |vals|
  {
    if |vals| == 0 then Success(base)
    else
      match Coerce(vals[0], cols[0].typ)
      case None => Failure(InvalidValue(vals[0], cols[0]))
      case Some(w) => BuildRecord(base[cols[0].name := w], cols[1..], vals[1..])
  }

  lemma NamesCons(cols: seq<Column>)
    requires |cols| > 0
    ensures Names(cols) == {cols[0].name} + Names(cols[1..])
  {
    var tail := cols[1..];
    forall n | n in Names(cols) ensures n in {cols[0].name} + Names(tail) {
      var i :| 0 <= i < |cols| && cols[i].name == n;
      if i > 0 { assert tail[i - 1].name == n; }
    }
    forall n | n in Names(tail) ensures n in Names(cols) {
      var i :| 0 <= i < |tail| && tail[i].name == n;
      assert cols[i + 1].name == n;
    }
  }

  /** Filling a record fails exactly at the first value that does not coerce,
      naming it; otherwise the record gains one key per column, keeps the rest
      of `base`, and a repeated column name keeps its last value. */
  lemma {:induction false} BuildRecordSpec(base: Record, cols: seq<Column>, vals: seq<Value>)
    requires |cols| == |vals|
    decreases |vals|
    ensures var r, k := BuildRecord(base, cols, vals), FirstInvalid(cols, vals);
      && (r.Failure? <==> k < |vals|)
      && (r.Failure? ==> r.error == InvalidValue(vals[k], cols[k]))
      && (r.Success? ==> r.value.Keys == base.Keys + Names(cols))
      && (r.Success? ==> forall key :: key in base && key !in Names(cols) ==> r.value[key] == base[key])
      && (r.Success? ==> forall i :: 0 <= i < |cols| && LastOfName(cols, i) ==>
                           r.value[cols[i].name] == Coerce(vals[i], cols[i].typ).value)
  {
    if |vals| > 0 && Coerce(vals[0], cols[0].typ).Some? {
      var w := Coerce(vals[0], cols[0].typ).value;
      var base' := base[cols[0].name := w];
      var tail, rest := cols[1..], vals[1..];
      BuildRecordSpec(base', tail, rest);
      NamesCons(cols);
      var r := BuildRecord(base, cols, vals);
      assert r == BuildRecord(base', tail, rest);
      if r.Success? {
        forall i | 0 <= i < |cols| && LastOfName(cols, i)
          ensures r.value[cols[i].name] == Coerce(vals[i], cols[i].typ).value
        {
          if i == 0 {
            assert forall j :: 0 <= j < |tail| ==> tail[j] == cols[j + 1];
            assert cols[0].name !in Names(tail);
          } else {
            assert cols[i] == tail[i - 1] && vals[i] == rest[i - 1];
            assert LastOfName(tail, i - 1) by {
              forall j | i - 1 < j < |tail| ensures tail[j].name != tail[i - 1].name {
                assert tail[j] == cols[j + 1];
              }
            }
          }
        }
      }
    }
  }

  /** `insert`: the table must exist, the values must number one fewer than the
      columns, and every value must coerce; only then is one record appended,
      holding `ID` and one entry per named column. */
  function Insert(meta: Metadata, name: string, vals: seq<Value>, t: Table): (r: Result<Table, InsertError>)
    requires name in meta && |vals| == |meta[name]| - 1 ==> NumericIds(t)
    ensures r == Failure(TableNotFound) <==> name !in meta
    ensures name in meta && |vals| != |meta[name]| - 1 ==>
      r == Failure(ArityMismatch(|meta[name]| - 1, |vals|))
    ensures name in meta && |vals| == |meta[name]| - 1 ==>
      var k := FirstInvalid(meta[name][1..], vals);
      k < |vals| ==> r == Failure(InvalidValue(vals[k], meta[name][k + 1]))
    ensures r.Success? <==>
      && name in meta && |vals| == |meta[name]| - 1
      && forall i :: 0 <= i < |vals| ==> Coerce(vals[i], meta[name][i + 1].typ).Some?
    ensures r.Success? ==> |r.value| == |t| + 1 && r.value[..|t|] == t
    ensures r.Success? ==> var cols := meta[name][1..];
      && r.value[|t|].Keys == {"ID"} + Names(cols)
      && ("ID" !in Names(cols) ==> r.value[|t|]["ID"] == Int(NextId(t)))
      && forall i :: 0 <= i < |cols| && LastOfName(cols, i) ==>
           r.value[|t|][cols[i].name] == Coerce(vals[i], cols[i].typ).value
  {
    if name !in meta then Failure(TableNotFound)
    else
      var cols := meta[name];
      if |vals| != |cols| - 1 then Failure(ArityMismatch(|cols| - 1, |vals|))
      else
        var base := map["ID" := Int(NextId(t))];
        BuildRecordSpec(base, cols[1..], vals);
        match BuildRecord(base, cols[1..], vals)
        case Failure(e) => Failure(e)
        case Success(rec) =>
          assert (t + [rec])[..|t|] == t;
          Success(t + [rec])
  }

  /** A successful insert appends the record built over the fresh `ID`. */
  lemma InsertOfBuilt(meta: Metadata, name: string, vals: seq<Value>, t: Table, rec: Record)
    requires name in meta && |vals| == |meta[name]| - 1 && NumericIds(t)
    requires BuildRecord(map["ID" := Int(NextId(t))], meta[name][1..], vals) == Success(rec)
    ensures Insert(meta, name, vals, t) == Success(t + [rec])
  {
  }

  /** With no user column named `ID`, a successful insert keeps IDs unique. */
  lemma InsertPreservesUniqueIds(meta: Metadata, name: string, vals: seq<Value>, t: Table)
    requires UniqueIds(t)
    requires name in meta && |meta[name]| > 0 && "ID" !in Names(meta[name][1..])
    requires Insert(meta, name, vals, t).Success?
    ensures UniqueIds(Insert(meta, name, vals, t).value)
  {
    var u := Insert(meta, name, vals, t).value;
    assert forall i :: 0 <= i < |t| ==> u[i] == t[i];
    assert HasNumericId(u[|t|]) && IdOf(u[|t|]) == NextId(t);
  }

  /** The records carry `ID`s 1, 2, ..., n in table order. */
  predicate Numbered(t: Table) {
    NumericIds(t) && forall i :: 0 <= i < |t| ==> IdOf(t[i]) == i + 1
  }

  /** Inserting into a table numbered 1..n numbers the new record n + 1, so a
      run of inserts into a fresh table numbers its records 1, 2, 3, ... */
  lemma InsertContinuesNumbering(meta: Metadata, name: string, vals: seq<Value>, t: Table)
    requires Numbered(t)
    requires name in meta && |meta[name]| > 0 && "ID" !in Names(meta[name][1..])
    requires Insert(meta, name, vals, t).Success?
    ensures Numbered(Insert(meta, name, vals, t).value)
  {
    var u := Insert(meta, name, vals, t).value;
    assert forall i :: 0 <= i < |t| ==> u[i] == t[i];
    if |t| > 0 {
      assert IdOf(t[|t| - 1]) == |t|;
    }
    assert IdOf(u[|t|]) == NextId(t) == |t| + 1;
  }

  // ---------------------------------------------------------------------------
  // Filtering by a clause: select, and the two halves of delete.

  /** Indices, in increasing order, of the records whose match against `c` is `want`. */
  function Positions(t: Table, c: Clause, want: bool): (ix: seq<nat>)
    ensures forall k :: 0 <= k < |ix| ==> ix[k] < |t| && Matches(t[ix[k]], c) == want
    ensures forall k, l :: 0 <= k < l < |ix| ==> ix[k] < ix[l]
    ensures forall i :: 0 <= i < |t| && Matches(t[i], c) == want ==> i in ix
  {
    if |t| == 0 then []
    else
      var n := |t| - 1;
      var ix := Positions(t[..n], c, want);
      assert forall i :: 0 <= i < n ==> t[..n][i] == t[i];
      if Matches(t[n], c) == want then ix + [n] else ix
  }

  /** The records whose match against `c` is `want`, in table order. */
  function Pick(t: Table, c: Clause, want: bool): Table {
    if |t| == 0 then []
    else
      var n := |t| - 1;
      Pick(t[..n], c, want) + if Matches(t[n], c) == want then [t[n]] else []
  }

  /** `Pick` takes exactly the records at `Positions`, in the same order. */
  lemma {:induction false} PickAtPositions(t: Table, c: Clause, want: bool)
    ensures var r, ix := Pick(t, c, want), Positions(t, c, want);
            |r| == |ix| && forall k :: 0 <= k < |r| ==> r[k] == t[ix[k]]
  {
    if |t| > 0 {
      var n := |t| - 1;
      var init := t[..n];
      PickAtPositions(init, c, want);
      var r0, ix0 := Pick(init, c, want), Positions(init, c, want);
      forall k | 0 <= k < |r0| ensures r0[k] == t[ix0[k]] {
        assert init[ix0[k]] == t[ix0[k]];
      }
      if Matches(t[n], c) == want {
        assert Pick(t, c, want) == r0 + [t[n]];
        assert Positions(t, c, want) == ix0 + [n];
      } else {
        assert Pick(t, c, want) == r0;
        assert Positions(t, c, want) == ix0;
      }
    }
  }

  /** `select`: no clause returns the table as it is; a clause returns, in
      order, exactly the records that hold every clause key with an equal value. */
  function Select(t: Table, w: Option<Clause>): (r: Table)
    ensures w.None? ==> r == t
    ensures w.Some? ==> var ix := Positions(t, w.value, true);
            |r| == |ix| && forall k :: 0 <= k < |r| ==> r[k] == t[ix[k]]
  {
    match w
    case None => t
    case Some(c) =>
      PickAtPositions(t, c, true);
      Pick(t, c, true)
  }

  /** Every record is either picked or left, so the two sides together are the table. */
  lemma PickStep(t: Table, c: Clause)
    requires |t| > 0
    ensures var init, x := t[..|t| - 1], t[|t| - 1];
      && t == init + [x]
      && Pick(t, c, Matches(x, c)) == Pick(init, c, Matches(x, c)) + [x]
      && Pick(t, c, !Matches(x, c)) == Pick(init, c, !Matches(x, c))
  {
  }

  lemma {:induction false} PickPartition(t: Table, c: Clause)
    ensures |Pick(t, c, true)| + |Pick(t, c, false)| == |t|
    ensures multiset(Pick(t, c, true)) + multiset(Pick(t, c, false)) == multiset(t)
  {
    if |t| > 0 {
      var init, x := t[..|t| - 1], t[|t| - 1];
      PickPartition(init, c);
      PickStep(t, c);
      var m := Matches(x, c);
      var a, b := Pick(init, c, m), Pick(init, c, !m);
      assert multiset(a + [x]) == multiset(a) + multiset{x};
      assert multiset(init + [x]) == multiset(init) + multiset{x};
    }
  }

  /** An empty clause matches every record. */
  lemma {:induction false} SelectWithEmptyClause(t: Table)
    ensures Select(t, Some(map[])) == t
  {
    if |t| > 0 {
      var n := |t| - 1;
      SelectWithEmptyClause(t[..n]);
      assert Matches(t[n], map[]);
      assert t == t[..n] + [t[n]];
    }
  }

  /** `delete`: the records that do not match, in order, as the new table, and the
      `ID`s of those that do, in order, for the report. */
  function Delete(t: Table, c: Clause): (r: (Table, seq<Value>))
    requires forall i :: 0 <= i < |t| && Matches(t[i], c) ==> "ID" in t[i]
    ensures var keep := Positions(t, c, false);
            |r.0| == |keep| && forall k :: 0 <= k < |r.0| ==> r.0[k] == t[keep[k]]
    ensures var gone := Positions(t, c, true);
            |r.1| == |gone| && forall k :: 0 <= k < |r.1| ==> r.1[k] == t[gone[k]]["ID"]
  {
    PickAtPositions(t, c, true);
    PickAtPositions(t, c, false);
    var gone := Pick(t, c, true);
    (Pick(t, c, false), seq(|gone|, k requires 0 <= k < |gone| => gone[k]["ID"]))
  }

  lemma {:induction false} NoneKeptMatch(t: Table, c: Clause)
    ensures Pick(Pick(t, c, false), c, true) == []
  {
    if |t| > 0 {
      var n := |t| - 1;
      NoneKeptMatch(t[..n], c);
      var u := Pick(t[..n], c, false);
      if !Matches(t[n], c) {
        var v := u + [t[n]];
        assert Pick(t, c, false) == v;
        assert v[..|v| - 1] == u && v[|v| - 1] == t[n];
        assert Pick(v, c, true) == Pick(u, c, true);
      } else {
        assert Pick(t, c, false) == u;
      }
    }
  }

  /** Nothing left after a delete matches its clause, and kept plus deleted
      account for the whole table. */
  lemma DeleteIsPartition(t: Table, c: Clause)
    requires forall i :: 0 <= i < |t| && Matches(t[i], c) ==> "ID" in t[i]
    ensures Select(Delete(t, c).0, Some(c)) == []
    ensures |Delete(t, c).0| + |Delete(t, c).1| == |t|
    ensures multiset(Delete(t, c).0) + multiset(Select(t, Some(c))) == multiset(t)
  {
    assert Delete(t, c).0 == Pick(t, c, false);
    assert |Delete(t, c).1| == |Pick(t, c, true)|;
    assert Select(t, Some(c)) == Pick(t, c, true);
    PickPartition(t, c);
    NoneKeptMatch(t, c);
  }

  /** The kept records are records of the table, so their IDs stay unique. */
  lemma DeletePreservesUniqueIds(t: Table, c: Clause)
    requires UniqueIds(t)
    ensures UniqueIds(Delete(t, c).0)
  {
    var kept := Delete(t, c).0;
    var ix := Positions(t, c, false);
    forall k, l | 0 <= k < l < |kept|
      ensures IdOf(kept[k]) != IdOf(kept[l])
    {
      assert ix[k] < ix[l];
    }
  }

  /** A delete never raises the next `ID`; when the largest `ID` goes, it is handed
      out again. */
  lemma DeleteNeverRaisesNextId(t: Table, c: Clause)
    requires NumericIds(t)
    ensures NumericIds(Delete(t, c).0)
    ensures |Delete(t, c).0| > 0 ==> NextId(Delete(t, c).0) <= NextId(t)
  {
    var kept := Pick(t, c, false);
    assert Delete(t, c).0 == kept;
    PickAtPositions(t, c, false);
    var ix := Positions(t, c, false);
    forall k | 0 <= k < |kept|
      ensures HasNumericId(kept[k]) && IdOf(kept[k]) < NextId(t)
    {
      assert kept[k] == t[ix[k]];
    }
    if |kept| > 0 {
      var m := MaxIdAt(kept);
      assert NextId(kept) == IdOf(kept[m]) + 1;
    }
  }

  /** `ID`s are reused: with records 1 and 2, deleting 2 makes the next insert 2 again. */
  lemma IdReusedAfterDeletingLargest()
    ensures var t := [map["ID" := Int(1)], map["ID" := Int(2)]];
            NextId(Delete(t, map["ID" := Int(2)]).0) == 2
  {
    var t := [map["ID" := Int(1)], map["ID" := Int(2)]];
    var c := map["ID" := Int(2)];
    assert Matches(t[1], c);
    assert !PyEq(t[0]["ID"], c["ID"]);
    assert !Matches(t[0], c);
    assert t[..1] == [t[0]] && [t[0]][..0] == [];
    assert Pick([t[0]], c, false) == [t[0]];
    assert Delete(t, c).0 == Pick(t, c, false) == [t[0]];
  }

  /** A bool `ID`, which a user column named `ID` of type `bool` can store,
      counts as 0 or 1: after an `ID` of `True` the next one is 2. */
  lemma BoolIdCountsAsOne()
    ensures NextId([map["ID" := Bool(true)]]) == 2
  {
    var t := [map["ID" := Bool(true)]];
    assert IdOf(t[0]) == 1;
  }

  // ---------------------------------------------------------------------------
  // Update.

  /** The assignments `update` makes to one matching record: every clause key
      the record already holds, except `ID`, takes the clause's value. */
  function Assign(r: Record, s: Clause): (u: Record)
    ensures u.Keys == r.Keys
    ensures "ID" in r ==> u["ID"] == r["ID"]
    ensures forall k :: k in r && k != "ID" && k in s ==> u[k] == s[k]
    ensures forall k :: k in r && k !in s ==> u[k] == r[k]
  {
    map k | k in r :: if k in s && k != "ID" then s[k] else r[k]
  }

  /** `update`: records matching the where clause get the set clause's values;
      the others, the table's length and order, every record's keys and every
      `ID` stay as they were. */
  function Update(t: Table, s: Clause, w: Clause): (r: Table)
    ensures |r| == |t|
    ensures forall i :: 0 <= i < |t| ==> r[i].Keys == t[i].Keys
    ensures forall i :: 0 <= i < |t| && "ID" in t[i] ==> r[i]["ID"] == t[i]["ID"]
    ensures forall i :: 0 <= i < |t| && !Matches(t[i], w) ==> r[i] == t[i]
    ensures forall i :: 0 <= i < |t| && Matches(t[i], w) ==> r[i] == Assign(t[i], s)
  {
    seq(|t|, i requires 0 <= i < |t| => if Matches(t[i], w) then Assign(t[i], s) else t[i])
  }

  lemma UpdatePreservesUniqueIds(t: Table, s: Clause, w: Clause)
    requires UniqueIds(t)
    ensures UniqueIds(Update(t, s, w))
  {
    var r := Update(t, s, w);
    assert forall i :: 0 <= i < |t| ==> HasNumericId(r[i]) && IdOf(r[i]) == IdOf(t[i]);
  }

  lemma AssignTwice(r: Record, s: Clause)
    ensures Assign(Assign(r, s), s) == Assign(r, s)
  {
  }

  /** Running the same update twice changes nothing more: a record it changed
      either still matches and takes the same values, or no longer matches. */
  lemma UpdateIdempotent(t: Table, s: Clause, w: Clause)
    ensures Update(Update(t, s, w), s, w) == Update(t, s, w)
  {
    var r := Update(t, s, w);
    forall i | 0 <= i < |t|
      ensures Update(r, s, w)[i] == r[i]
    {
      if Matches(r[i], w) && Matches(t[i], w) {
        AssignTwice(t[i], s);
      }
    }
  }

  /** A record that matched and holds every set key (none of them `ID`) matches
      the set clause afterwards. */
  lemma UpdatedRecordsMatchSet(t: Table, s: Clause, w: Clause, i: nat)
    requires i < |t| && Matches(t[i], w)
    requires "ID" !in s && forall k :: k in s ==> k in t[i]
    ensures Matches(Update(t, s, w)[i], s)
  {
    var u := Update(t, s, w)[i];
    forall k | k in s ensures k in u && PyEq(u[k], s[k]) {
      PyEqIsKeyEquality(u[k], s[k]);
    }
  }

  // The confirmation scan after an update.

  /** The keys `update` assigns in one matching record: set-clause keys the
      record holds, except `ID`. */
  function AssignedKeys(r: Record, s: Clause): set<string> {
    set k | k in s && k in r && k != "ID"
  }

  /** `updated_count` after the update loop: one per assignment made. */
  function UpdatedCount(t: Table, s: Clause, w: Clause): nat {
    if |t| == 0 then 0
    else
      var n := |t| - 1;
      UpdatedCount(t[..n], s, w) + if Matches(t[n], w) then |AssignedKeys(t[n], s)| else 0
  }

  /** Some matching record holds a set-clause key other than `ID`. */
  predicate AssignsSomething(t: Table, s: Clause, w: Clause) {
    exists i, k :: 0 <= i < |t| && Matches(t[i], w) && k in s && k in t[i] && k != "ID"
  }

  /** The counter is positive exactly when some assignment was made. */
  lemma {:induction false} UpdatedCountPositive(t: Table, s: Clause, w: Clause)
    ensures UpdatedCount(t, s, w) > 0 <==> AssignsSomething(t, s, w)
  {
    if |t| > 0 {
      var n := |t| - 1;
      var p := t[..n];
      UpdatedCountPositive(p, s, w);
      assert forall i :: 0 <= i < n ==> p[i] == t[i];
      if AssignsSomething(t, s, w) {
        var i, k :| 0 <= i < |t| && Matches(t[i], w) && k in s && k in t[i] && k != "ID";
        if i == n {
          assert k in AssignedKeys(t[n], s);
        } else {
          assert AssignsSomething(p, s, w);
        }
      }
      if Matches(t[n], w) && |AssignedKeys(t[n], s)| > 0 {
        var k :| k in AssignedKeys(t[n], s);
        assert Matches(t[n], w) && k in s && k in t[n] && k != "ID";
      }
    }
  }

  /** `i` is the first record of `t` that matches `w`. */
  predicate FirstMatchAt(t: Table, w: Clause, i: int) {
    0 <= i < |t| && Matches(t[i], w) && forall j :: 0 <= j < i ==> !Matches(t[j], w)
  }

  /** The first matching position is the first of `Positions`. */
  lemma FirstOfPositions(t: Table, w: Clause)
    ensures var ix := Positions(t, w, true);
            forall i :: FirstMatchAt(t, w, i) <==> |ix| > 0 && i == ix[0]
  {
    var ix := Positions(t, w, true);
    assert forall k :: 0 <= k < |ix| ==> ix[0] <= ix[k];
    forall i ensures FirstMatchAt(t, w, i) <==> |ix| > 0 && i == ix[0] {
      if FirstMatchAt(t, w, i) {
        assert i in ix;
        assert Matches(t[ix[0]], w);
      }
    }
  }

  datatype UpdateError = MissingId(at: nat)

  /** `update` together with its confirmation scan: when `updated_count` is
      positive, the source reads the `ID` of the first record that matches the
      where clause after the update, and raises `KeyError` when that record
      has none. Otherwise the result is the updated table. */
  function UpdateChecked(t: Table, s: Clause, w: Clause): (r: Result<Table, UpdateError>)
    ensures r.Success? ==> r.value == Update(t, s, w)
    ensures r.Failure? <==>
              AssignsSomething(t, s, w)
              && exists i :: FirstMatchAt(Update(t, s, w), w, i) && "ID" !in t[i]
    ensures r.Failure? ==> FirstMatchAt(Update(t, s, w), w, r.error.at) && "ID" !in t[r.error.at]
  {
    var u := Update(t, s, w);
    UpdatedCountPositive(t, s, w);
    FirstOfPositions(u, w);
    var ix := Positions(u, w, true);
    if UpdatedCount(t, s, w) > 0 && |ix| > 0 && "ID" !in u[ix[0]] then Failure(MissingId(ix[0]))
    else Success(u)
  }

  /** When every record holds an `ID`, the scan cannot fail. */
  lemma UpdateCheckedWithIds(t: Table, s: Clause, w: Clause)
    requires forall i :: 0 <= i < |t| ==> "ID" in t[i]
    ensures UpdateChecked(t, s, w) == Success(Update(t, s, w))
  {
  }

  /** A record without `ID` that still matches after the update makes it raise:
      the update is applied (the source mutates in place) but the call fails. */
  lemma UpdateRaisesWithoutId()
    ensures var rec := map["name" := Str("a")];
            UpdateChecked([rec], rec, rec) == Failure(MissingId(0))
  {
    var rec := map["name" := Str("a")];
    UpdateMissingIdAtFirst([rec], rec, rec, "name");
  }

  lemma UpdateMissingIdAtFirst(t: Table, s: Clause, w: Clause, k: string)
    requires |t| > 0 && Matches(t[0], w) && "ID" !in t[0]
    requires k in s && k in t[0] && k != "ID"
    requires Matches(Update(t, s, w)[0], w)
    ensures UpdateChecked(t, s, w) == Failure(MissingId(0))
  {
    assert FirstMatchAt(Update(t, s, w), w, 0);
  }

  /** When the update leaves no record matching the where clause (as when it
      changes the very field it selected on), the scan reads nothing. */
  lemma UpdateNoLongerMatching(t: Table, s: Clause, w: Clause)
    requires forall i :: 0 <= i < |t| ==> !Matches(Update(t, s, w)[i], w)
    ensures UpdateChecked(t, s, w) == Success(Update(t, s, w))
  {
  }
}

=== FILE: scenario.dfy ===
/** An example session: create `orders`, insert one row from its `values`
    text, and select it back with an int literal but not with a quoted one. */
module Scenario {
  import opened Outcomes
  import opened PyText
  import opened Values
  import opened Schema
  import opened Parser
  import opened Records

  const Sergei: Record := map["ID" := Int(1), "name" := Str("Sergei"), "age" := Int(28)]

  lemma ParseSergeiValues()
    ensures ParseValues("(\"Sergei\", 28)") == [Str("Sergei"), Int(28)]
  {
    var vs := [Str("Sergei"), Int(28)];
    var ps := ["\"Sergei\"", "28"];
    SmallIntTexts();
    assert '"' !in "Sergei";
    assert Render(vs[0]) == ps[0] && Render(vs[1]) == ps[1];
    assert RenderAll(vs) == ps;
    assert ps[1..] == ["28"];
    assert JoinPieces(ps) == ps[0] + ", " + ps[1];
    assert RenderValues(vs) == "(\"Sergei\", 28)";
    ParseValuesRoundTrip(vs);
  }

  lemma BuildSergei()
    ensures BuildRecord(map["ID" := Int(1)], [Column("name", StrCol), Column("age", IntCol)],
                        [Str("Sergei"), Int(28)]) == Success(Sergei)
  {
    var cols := [Column("name", StrCol), Column("age", IntCol)];
    var vals := [Str("Sergei"), Int(28)];
    var b1 := map["ID" := Int(1), "name" := Str("Sergei")];
    assert Coerce(vals[0], cols[0].typ) == Some(Str("Sergei"));
    assert Coerce(vals[1], cols[1].typ) == Some(Int(28));
    assert cols[1..] == [cols[1]] && vals[1..] == [vals[1]];
    assert BuildRecord(map["ID" := Int(1)], cols, vals) == BuildRecord(b1, [cols[1]], [vals[1]]);
    assert BuildRecord(b1, [cols[1]], [vals[1]]) == BuildRecord(b1["age" := Int(28)], [], []);
    assert b1["age" := Int(28)] == Sergei;
  }

  lemma InsertSergeiRow(meta: Metadata)
    requires "orders" in meta
    requires meta["orders"] == [IdColumn, Column("name", StrCol), Column("age", IntCol)]
    ensures Insert(meta, "orders", [Str("Sergei"), Int(28)], []) == Success([Sergei])
  {
    var vals := [Str("Sergei"), Int(28)];
    assert meta["orders"][1..] == [Column("name", StrCol), Column("age", IntCol)];
    assert NextId([]) == 1;
    BuildSergei();
    InsertOfBuilt(meta, "orders", vals, [], Sergei);
  }

  /** `insert into orders values ("Sergei", 28)` on the new table stores
      `{ID: 1, name: "Sergei", age: 28}`. */
  lemma InsertSergei(meta: Metadata)
    requires "orders" !in meta
    ensures var orders := CreateTable(meta, "orders", ["name:str", "age:int"]);
            Insert(orders, "orders", ParseValues("(\"Sergei\", 28)"), []) == Success([Sergei])
  {
    CreateOrdersExample(meta);
    ParseSergeiValues();
    InsertSergeiRow(CreateTable(meta, "orders", ["name:str", "age:int"]));
  }

  lemma StripAgeKey()
    ensures Strip("age ") == "age"
  {
    assert "age " == "" + "age" + " ";
    StripOfPadded("", "age", " ");
  }

  lemma StripTwentyEight()
    ensures Strip(" 28") == "28"
  {
    assert " 28" == " " + "28" + "";
    StripOfPadded(" ", "28", "");
  }

  lemma StripQuotedTwentyEight()
    ensures Strip(" \"28\"") == "\"28\""
  {
    assert " \"28\"" == " " + "\"28\"" + "";
    StripOfPadded(" ", "\"28\"", "");
  }

  lemma WhereAgeInt()
    ensures ParseWhereClause("age = 28") == Some(map["age" := Int(28)])
  {
    assert "age = 28" == "age " + "=" + " 28";
    WhereClauseSplitsAtFirstEquals("age ", " 28");
    StripAgeKey();
    StripTwentyEight();
    SmallIntTexts();
    ClassifyIntText(28);
  }

  lemma QuotedTwentyEight()
    ensures Classify("\"28\"") == Str("28")
  {
    ClassifyQuoted('"', "28");
    assert ['"'] + "28" + ['"'] == "\"28\"";
  }

  lemma WhereAgeText()
    ensures ParseWhereClause("age = \"28\"") == Some(map["age" := Str("28")])
  {
    var a, b := "age ", " \"28\"";
    assert "age = \"28\"" == a + "=" + b;
    WhereClauseSplitsAtFirstEquals(a, b);
    StripAgeKey();
    StripQuotedTwentyEight();
    QuotedTwentyEight();
  }

  /** `where age = 28` finds the row; `where age = "28"` does not, because text
      never equals an int. */
  lemma SelectSergeiByAge()
    ensures Select([Sergei], ParseWhereClause("age = 28")) == [Sergei]
    ensures Select([Sergei], ParseWhereClause("age = \"28\"")) == []
  {
    WhereAgeInt();
    WhereAgeText();
    var t := [Sergei];
    assert t[..0] == [];
    assert Matches(Sergei, map["age" := Int(28)]);
    assert !PyEq(Sergei["age"], Str("28"));
    assert !Matches(Sergei, map["age" := Str("28")]);
    assert Pick(t, map["age" := Int(28)], true) == [Sergei];
    assert Pick(t, map["age" := Str("28")], true) == [];
  }
}

=== FILE: schema.dfy ===
/** The schema store: each table name maps to its ordered column list, whose
    first entry is the implicit `ID:int` column added at creation. */
module Schema {
  import opened Outcomes
  import opened PyText

  /** The three column types a table may declare. */
  datatype ColType = IntCol | StrCol | BoolCol

  datatype Column = Column(name: string, typ: ColType)

  /** Table name to its column list. */
  type Metadata = map<string, seq<Column>>

  /** The spelling of a type in a `name:type` column token. */
  function TypeName(t: ColType): string {
    match t
    case IntCol => "int"
    case StrCol => "str"
    case BoolCol => "bool"
  }

  /** Membership in the set of valid type names; the text is taken as written,
      so ` int` or `Int` is not a type. */
  function ParseColType(s: string): (r: Option<ColType>)
    ensures r.Some? ==> TypeName(r.value) == s
  {
    if s == "int" then Some(IntCol)
    else if s == "str" then Some(StrCol)
    else if s == "bool" then Some(BoolCol)
    else None
  }

  lemma ParseColTypeOfName(t: ColType)
    ensures ParseColType(TypeName(t)) == Some(t)
  {
  }

  const IdColumn := Column("ID", IntCol)

  /** How a column is written in a `create_table` command. */
  function SpecText(c: Column): string {
    c.name + ":" + TypeName(c.typ)
  }

  /** One `name:type` token: split at the first `:`; the name is kept as is and
      the rest must be a type name exactly. */
  function ParseColumnSpec(spec: string): (r: Option<Column>)
    ensures ':' !in spec ==> r.None?
    ensures r.Some? ==> SpecText(r.value) == spec && ':' !in r.value.name
  {
    match SplitOnce(spec, ':')
    case None => None
    case Some((name, typ)) =>
      match ParseColType(typ)
      case None => None
      case Some(t) => Some(Column(name, t))
  }

  /** Every column whose name has no `:` is read back from its own token; with
      the ensures of `ParseColumnSpec` this makes the valid tokens exactly the
      texts of such columns. */
  lemma ColumnSpecRoundTrip(c: Column)
    requires ':' !in c.name
    ensures ParseColumnSpec(SpecText(c)) == Some(c)
  {
    assert SpecText(c) == c.name + [':'] + TypeName(c.typ);
    SplitOnceAtFirst(c.name, ':', TypeName(c.typ));
    ParseColTypeOfName(c.typ);
  }

  predicate AllSpecsValid(specs: seq<string>) {
    forall i :: 0 <= i < |specs| ==> ParseColumnSpec(specs[i]).Some?
  }

  /** The column list of a token list, or `None` as soon as one token is invalid. */
  function ParseColumnSpecs(specs: seq<string>): (r: Option<seq<Column>>)
    ensures r.Some? <==> AllSpecsValid(specs)
    ensures r.Some? ==> |r.value| == |specs|
    ensures r.Some? ==> forall i :: 0 <= i < |specs| ==> ParseColumnSpec(specs[i]) == Some(r.value[i])
  {
    if |specs| == 0 then Some([])
    else
      match ParseColumnSpec(specs[0])
      case None => None
      case Some(c) =>
        match ParseColumnSpecs(specs[1..])
        case None => None
        case Some(cs) => Some([c] + cs)
  }

  /** `create_table`: an existing name or any invalid token leaves the store as it
      was; otherwise the table gets `ID:int` followed by the given columns in order,
      and no other table changes. */
  function CreateTable(meta: Metadata, name: string, specs: seq<string>): (r: Metadata)
    ensures name in meta ==> r == meta
    ensures !AllSpecsValid(specs) ==> r == meta
    ensures name !in meta && AllSpecsValid(specs) ==>
      && r.Keys == meta.Keys + {name}
      && (forall k :: k in meta ==> r[k] == meta[k])
      && |r[name]| == |specs| + 1
      && r[name][0] == IdColumn
      && (forall i :: 0 <= i < |specs| ==> SpecText(r[name][i + 1]) == specs[i])
  {
    if name in meta then meta
    else
      match ParseColumnSpecs(specs)
      case None => meta
      case Some(cols) => meta[name := [IdColumn] + cols]
  }

  /** `drop_table`: removes exactly the named table; a missing name changes nothing. */
  function DropTable(meta: Metadata, name: string): (r: Metadata)
    ensures name !in meta ==> r == meta
    ensures r.Keys == meta.Keys - {name}
    ensures forall k :: k in r ==> r[k] == meta[k]
  {
    meta - {name}
  }

  /** Creating a new table and dropping it again restores the store. */
  lemma DropUndoesCreate(meta: Metadata, name: string, specs: seq<string>)
    requires name !in meta
    ensures DropTable(CreateTable(meta, name, specs), name) == meta
  {
  }

  /** A dropped name may be created again, with any schema. */
  lemma RecreateAfterDrop(meta: Metadata, name: string, specs: seq<string>)
    requires AllSpecsValid(specs)
    ensures name in CreateTable(DropTable(meta, name), name, specs)
  {
  }

  lemma ParseColumnSpecsCons(spec: string, rest: seq<string>, c: Column, cs: seq<Column>)
    requires ParseColumnSpec(spec) == Some(c) && ParseColumnSpecs(rest) == Some(cs)
    ensures ParseColumnSpecs([spec] + rest) == Some([c] + cs)
  {
    assert ([spec] + rest)[0] == spec;
    assert ([spec] + rest)[1..] == rest;
  }

  lemma SpecsOfTwo(c: Column, d: Column)
    requires ':' !in c.name && ':' !in d.name
    ensures ParseColumnSpecs([SpecText(c), SpecText(d)]) == Some([c, d])
  {
    ColumnSpecRoundTrip(c);
    ColumnSpecRoundTrip(d);
    ParseColumnSpecsCons(SpecText(d), [], d, []);
    assert [SpecText(d)] + [] == [SpecText(d)] && [d] + [] == [d];
    ParseColumnSpecsCons(SpecText(c), [SpecText(d)], c, [d]);
    assert [SpecText(c)] + [SpecText(d)] == [SpecText(c), SpecText(d)];
    assert [c] + [d] == [c, d];
  }

  /** A new name with valid tokens gets `ID:int` followed by the parsed columns. */
  lemma CreateTableOfParsed(meta: Metadata, name: string, specs: seq<string>, cols: seq<Column>)
    requires name !in meta && ParseColumnSpecs(specs) == Some(cols)
    ensures name in CreateTable(meta, name, specs)
    ensures CreateTable(meta, name, specs)[name] == [IdColumn] + cols
  {
  }

  lemma OrdersSpecTexts()
    ensures [SpecText(Column("name", StrCol)), SpecText(Column("age", IntCol))] == ["name:str", "age:int"]
  {
    assert SpecText(Column("name", StrCol)) == "name" + ":" + "str" == "name:str";
    assert SpecText(Column("age", IntCol)) == "age" + ":" + "int" == "age:int";
  }

  lemma OrdersSpecs()
    ensures ParseColumnSpecs(["name:str", "age:int"]) == Some([Column("name", StrCol), Column("age", IntCol)])
  {
    var n, a := Column("name", StrCol), Column("age", IntCol);
    OrdersSpecTexts();
    SpecsOfTwo(n, a);
  }

  lemma CreateTwoColumns(meta: Metadata, name: string, specs: seq<string>, n: Column, a: Column)
    requires name !in meta && ParseColumnSpecs(specs) == Some([n, a])
    ensures name in CreateTable(meta, name, specs)
    ensures CreateTable(meta, name, specs)[name] == [IdColumn, n, a]
  {
    CreateTableOfParsed(meta, name, specs, [n, a]);
    assert [IdColumn] + [n, a] == [IdColumn, n, a];
  }

  /** `create_table orders name:str age:int` gives `[ID:int, name:str, age:int]`. */
  lemma CreateOrdersExample(meta: Metadata)
    requires "orders" !in meta
    ensures "orders" in CreateTable(meta, "orders", ["name:str", "age:int"])
    ensures CreateTable(meta, "orders", ["name:str", "age:int"])["orders"]
            == [IdColumn, Column("name", StrCol), Column("age", IntCol)]
  {
    OrdersSpecs();
    CreateTwoColumns(meta, "orders", ["name:str", "age:int"], Column("name", StrCol), Column("age", IntCol));
  }
}

=== FILE: values.dfy ===
/** The values the store keeps and how it compares them. A stored value is a
    Python `int`, `str` or `bool`; records map column names to values. */
module Values {
  import opened PyText

  datatype Value = Int(i: int) | Str(s: string) | Bool(b: bool)

  /** One row of a table: column name to value. */
  type Record = map<string, Value>

  /** A table's rows in storage order. */
  type Table = seq<Record>

  /** A `where` or `set` clause: column name to literal. */
  type Clause = map<string, Value>

  /** Python's `int(b)` for a bool. */
  function BoolToInt(b: bool): int {
    if b then 1 else 0
  }

  /** Python's `a == b` on stored values: a bool equals the int it converts to,
      and text never equals a number or a bool. */
  predicate PyEq(a: Value, b: Value) {
    match (a, b)
    case (Int(x), Int(y)) => x == y
    case (Str(x), Str(y)) => x == y
    case (Bool(x), Bool(y)) => x == y
    case (Bool(x), Int(y)) => BoolToInt(x) == y
    case (Int(x), Bool(y)) => x == BoolToInt(y)
    case _ => false
  }

  /** Python's `str(v)`. */
  function PyStr(v: Value): string {
    match v
    case Int(n) => IntToString(n)
    case Str(s) => s
    case Bool(b) => if b then "True" else "False"
  }

  /** The equality class a value falls into under Python's `==`: numbers and
      bools by their integer value, text by itself. */
  datatype EqKey = NumKey(n: int) | TextKey(t: string)

  function KeyOf(v: Value): EqKey {
    match v
    case Int(n) => NumKey(n)
    case Bool(b) => NumKey(BoolToInt(b))
    case Str(s) => TextKey(s)
  }

  /** `PyEq` is exactly equality of equality classes, so it is an equivalence. */
  lemma PyEqIsKeyEquality(a: Value, b: Value)
    ensures PyEq(a, b) <==> KeyOf(a) == KeyOf(b)
  {
  }

  /** The two facts of Python's `==` that set it apart from structural equality. */
  lemma PyEqMixesBoolAndInt(n: int, t: string, b: bool)
    ensures PyEq(Bool(true), Int(1)) && PyEq(Int(0), Bool(false))
    ensures !PyEq(Int(n), Str(t)) && !PyEq(Str(t), Int(n))
    ensures !PyEq(Bool(b), Str(t)) && !PyEq(Str(t), Bool(b))
  {
  }

  /** A record satisfies a clause when it holds every clause key with a value
      equal to the clause's; a key the record lacks excludes it. */
  predicate Matches(r: Record, c: Clause) {
    forall k :: k in c ==> k in r && PyEq(r[k], c[k])
  }

  /** The record holds an `ID` that Python can compare and add 1 to: an int, or
      a bool, which counts as 0 or 1. */
  predicate HasNumericId(r: Record) {
    "ID" in r && !r["ID"].Str?
  }

  /** A record's `ID` as the integer Python's `max` and `+ 1` see. */
  function IdOf(r: Record): int
    requires HasNumericId(r)
  {
    match r["ID"]
    case Int(n) => n
    case Bool(b) => BoolToInt(b)
  }

  predicate NumericIds(t: Table) {
    forall i :: 0 <= i < |t| ==> HasNumericId(t[i])
  }

  /** No two records of the table share an `ID`. */
  predicate UniqueIds(t: Table) {
    NumericIds(t) && forall i, j :: 0 <= i < j < |t| ==> IdOf(t[i]) != IdOf(t[j])
  }
}
